=== FILE: README.md ===
# nbazone in Dafny

A model of the core of *nbazone*, a Spring Boot REST service that keeps a table
of NBA players with their season statistics and puts a JWT-based sign-up /
sign-in flow in front of it. The model covers:

- `PlayerServiceImpl`: the list queries, the two paged sorts, the top-ten
  query and the add / update / delete writes, each as a pure function of the
  player table (`Store`: the rows in table order plus the next identity value);
- `PlayerRepository`: the derived finders, paging and the `CASE`-ordered
  top-ten query, with the database's `ORDER BY` modelled as an insertion sort in
  which NULL sorts lowest;
- `PlayerRequestDto`: the bean-validation constraints (`@NotBlank`,
  `@Positive`) as a function from a payload to its violations;
- the guards `PlayerController` puts in front of the writes (`@Valid`, then
  `hasRole('ADMIN')` on update and delete);
- `RoleInitializer.run`, the start-up seeding of the roles table, as a method
  with a loop invariant;
- `AuthController`: role resolution and registration in `registerUser`, the
  sign-in response of `authenticateUser`, `currentUsername` and
  `getUserDetails`.

Statistics are integers (fixed-point stand-ins for the `Double` columns);
a statistic that is absent from a row's map is SQL NULL. Writes return a
`Reply` holding the table afterwards and either the value returned or the
exception thrown (`Error`). The password encoder is a function parameter and
the authentication manager's verdict is an input.

Files: `wrappers.dfy` (Option/Result), `text.dfy` (trim, `@NotBlank`,
`equalsIgnoreCase`), `players.dfy` (entities, payloads, mapping),
`ordering.dfy` (column order, sort, slices and pages), `repository.dfy`,
`validation.dfy`, `service.dfy`, `controller.dfy`, `roles.dfy`,
`role_initializer.dfy`, `auth.dfy`.

## Model

| member | source | states |
|---|---|---|
| Text.Leading | src/main/java/org/ersandev/nbazone/dto/PlayerRequestDto.java:12-15 | counts the leading characters at or below U+0020: all before the count are trimmable and the one at it, if any, is not |
| Text.Trailing | src/main/java/org/ersandev/nbazone/dto/PlayerRequestDto.java:12-15 | counts the trailing characters at or below U+0020: all after the remaining prefix are trimmable and its last character, if any, is not |
| Text.Trim | src/main/java/org/ersandev/nbazone/dto/PlayerRequestDto.java:12-15 | `String.trim` gives the window of the string after its leading trimmable characters, beginning and ending on a visible character, with only trimmable characters after it; it is empty exactly when every character is trimmable |
| Text.NotBlank | src/main/java/org/ersandev/nbazone/dto/PlayerRequestDto.java:12-15 | `@NotBlank` holds on a string exactly when some character lies above U+0020, so empty and whitespace-only strings are blank |
| Text.EqualsIgnoreCase | src/main/java/org/ersandev/nbazone/player/PlayerServiceImpl.java:76-82 | two strings are equal ignoring case exactly when their folded forms are equal |
| Text.EqualsIgnoreCaseIsEquivalence | src/main/java/org/ersandev/nbazone/player/PlayerServiceImpl.java:76-82 | comparing ignoring case is reflexive, symmetric and transitive |
| Players.ToResponse | src/main/java/org/ersandev/nbazone/mapper/EntityMapper.java:20-22 | mapping an entity to its response loses nothing: reading the response back gives the entity |
| Players.ToResponses | src/main/java/org/ersandev/nbazone/player/PlayerServiceImpl.java:32-34 | mapping a list of rows gives one response per row, in order: read back it is exactly the rows |
| Ordering.Insert | src/main/java/org/ersandev/nbazone/player/PlayerServiceImpl.java:84-85 | inserting into an ordered list keeps it ordered and adds exactly that row |
| Ordering.SortBy | src/main/java/org/ersandev/nbazone/player/PlayerServiceImpl.java:84-85 | the ordered table is ordered on the column in the direction asked and is a permutation of the table |
| Ordering.RestFollowsPrefix | src/main/java/org/ersandev/nbazone/player/PlayerRepository.java:15-22 | in an ordered list every row beyond the first n may follow row n-1 |
| Ordering.Slice | src/main/java/org/ersandev/nbazone/player/PlayerServiceImpl.java:84-85 | a slice holds at most `size` rows, exactly as many as remain from the offset, each the row at its offset |
| Ordering.PageHolds | src/main/java/org/ersandev/nbazone/player/PlayerServiceImpl.java:84-85 | row m of page `index` is row `index * size + m` of the table whenever that row exists |
| Ordering.SliceIsPage | src/main/java/org/ersandev/nbazone/player/PlayerServiceImpl.java:84-85 | the slice at offset `index * size` is page `index` |
| Ordering.SliceOfSorted | src/main/java/org/ersandev/nbazone/player/PlayerServiceImpl.java:84-85 | a slice of an ordered list is ordered |
| PlayerRepository.FindById | src/main/java/org/ersandev/nbazone/player/PlayerServiceImpl.java:124-125 | `findById` answers with a stored row carrying the id, and is empty exactly when no row carries it |
| PlayerRepository.IndexOfId | src/main/java/org/ersandev/nbazone/player/PlayerServiceImpl.java:137-140 | the position found holds the id, and there is none exactly when `findById` is empty |
| PlayerRepository.FindByIdAt | src/main/java/org/ersandev/nbazone/player/Player.java:17-19 | with distinct identities, `findById` of a row's id answers with that row |
| PlayerRepository.Filter | src/main/java/org/ersandev/nbazone/player/PlayerRepository.java:24-28 | the rows kept are exactly the matching stored rows, none duplicated; nothing matching gives the empty list, everything matching gives the table |
| PlayerRepository.FindAllByTeamIgnoreCase | src/main/java/org/ersandev/nbazone/player/PlayerRepository.java:24 | absent exactly when the framework answers absent; otherwise exactly the rows whose team equals the argument ignoring case |
| PlayerRepository.FindAllByPlayerName | src/main/java/org/ersandev/nbazone/player/PlayerRepository.java:26 | absent exactly when the framework answers absent; otherwise exactly the rows with that name |
| PlayerRepository.FindAllByAge | src/main/java/org/ersandev/nbazone/player/PlayerRepository.java:28 | absent exactly when the framework answers absent; otherwise exactly the rows of that age |
| PlayerRepository.PageRequestOf | src/main/java/org/ersandev/nbazone/player/PlayerServiceImpl.java:84 | `PageRequest.of` succeeds exactly when page >= 0 and size >= 1, keeping its arguments, and fails with an invalid-page error otherwise |
| PlayerRepository.Ordered | src/main/java/org/ersandev/nbazone/player/PlayerServiceImpl.java:85 | the table in the requested order is a permutation of it, ordered when a sort is given |
| PlayerRepository.FindAllPaged | src/main/java/org/ersandev/nbazone/player/PlayerServiceImpl.java:84-85 | `findAll(pageable)` refuses exactly the pages whose offset page * size exceeds `Integer.MAX_VALUE`; otherwise it is the requested page of the ordered table, and is ordered |
| PlayerRepository.TopTenField | src/main/java/org/ersandev/nbazone/player/PlayerRepository.java:15-21 | the five filter tokens select their statistic; every other string orders by id |
| PlayerRepository.FindTopTenByFilter | src/main/java/org/ersandev/nbazone/player/PlayerRepository.java:15-22 | refuses exactly the pages whose offset exceeds `Integer.MAX_VALUE`; otherwise the requested page of the table ordered descending on the selected column, and ordered descending itself |
| Validation.Violations | src/main/java/org/ersandev/nbazone/dto/PlayerRequestDto.java:12-27 | the name and team are reported exactly when blank, the age exactly when not positive, each with its default message; statistics never |
| Validation.IsValid | src/main/java/org/ersandev/nbazone/player/PlayerController.java:130 | `@Valid` accepts a payload exactly when the name and team are non-blank and the age is positive |
| Validation.IsValidIff | src/main/java/org/ersandev/nbazone/dto/PlayerRequestDto.java:12-17 | a payload passes exactly when name and team are present with a character above U+0020 and age >= 1 |
| Validation.StatsAreUnconstrained | src/main/java/org/ersandev/nbazone/dto/PlayerRequestDto.java:18-27 | changing the statistics never changes the violations |
| Validation.OmittedAgeIsRejected | src/main/java/org/ersandev/nbazone/dto/PlayerRequestDto.java:16-17 | an omitted age (the primitive default 0) is rejected with "must be greater than 0" |
| Validation.BlankNamesAreRejected | src/main/java/org/ersandev/nbazone/dto/PlayerRequestDto.java:12-13 | a null name, and every name made only of characters at or below U+0020 (the empty one included), is rejected |
| PlayerService.GetPlayers | src/main/java/org/ersandev/nbazone/player/PlayerServiceImpl.java:30-35 | one response per stored row, in table order |
| PlayerService.GetPlayersFromTeam | src/main/java/org/ersandev/nbazone/player/PlayerServiceImpl.java:39-46 | `TeamNotFound` exactly when the repository answers absent; otherwise exactly the team's rows, ignoring case |
| PlayerService.GetPlayersByName | src/main/java/org/ersandev/nbazone/player/PlayerServiceImpl.java:51-58 | `PlayerNotFound` exactly when the repository answers absent; otherwise exactly the rows with that name |
| PlayerService.GetPlayersByAge | src/main/java/org/ersandev/nbazone/player/PlayerServiceImpl.java:61-69 | `PlayerNotFound` exactly when the repository answers absent; otherwise exactly the rows of that age |
| PlayerService.PresentEmptyTeamIsNotAnError | src/main/java/org/ersandev/nbazone/player/PlayerServiceImpl.java:39-46 | a present answer with no row of that team is the empty list, not `TeamNotFound` |
| PlayerService.PresentEmptyNameIsNotAnError | src/main/java/org/ersandev/nbazone/player/PlayerServiceImpl.java:51-58 | a present answer with no row of that name is the empty list, not `PlayerNotFound` |
| PlayerService.PresentEmptyAgeIsNotAnError | src/main/java/org/ersandev/nbazone/player/PlayerServiceImpl.java:61-69 | a present answer with no row of that age is the empty list, not `PlayerNotFound` |
| PlayerService.ParseDirection | src/main/java/org/ersandev/nbazone/player/PlayerServiceImpl.java:76-82 | descending exactly when the token equals "desc" ignoring case; everything else is ascending |
| PlayerService.DirectionTokens | src/test/java/org/ersandev/nbazone/player/PlayerServiceImplTest.java:186-332 | the tests' tokens "asc", "desc", "invalid_direction" and "wrong" give the directions the tests expect; the upper-case and mixed-case tokens and "" are added here and follow `equalsIgnoreCase` |
| PlayerService.SortedPage | src/main/java/org/ersandev/nbazone/player/PlayerServiceImpl.java:72-105 | an invalid-page error exactly when page < 0 or size < 1, and an offset error exactly when the offset page * size exceeds `Integer.MAX_VALUE`; otherwise the requested page of the table ordered on the column, itself ordered |
| PlayerService.SortPlayersByAge | src/main/java/org/ersandev/nbazone/player/PlayerServiceImpl.java:72-87 | an invalid-page error exactly when page < 0 or size < 1, and an offset error exactly when the offset page * size exceeds `Integer.MAX_VALUE`; otherwise the requested page of the table ordered by age in the parsed direction |
| PlayerService.LargeOffsetIsRefused | src/main/java/org/ersandev/nbazone/player/PlayerServiceImpl.java:84-85 | page 2^30 of size 4, both valid `int`s, is refused with the offset error instead of answering an empty page |
| PlayerService.SortPlayersByPoint | src/main/java/org/ersandev/nbazone/player/PlayerServiceImpl.java:90-105 | an invalid-page error exactly when page < 0 or size < 1, and an offset error exactly when the offset page * size exceeds `Integer.MAX_VALUE`; otherwise the requested page of the table ordered by points in the parsed direction |
| PlayerService.PagesTileSortedTable | src/main/java/org/ersandev/nbazone/player/PlayerServiceImpl.java:84-86 | for a single ordering of the table, every row appears on some page: row k is entry k % size of page k / size, and that page is served exactly when its offset fits in an `int` |
| PlayerService.TopTenPlayersForFilter | src/main/java/org/ersandev/nbazone/player/PlayerServiceImpl.java:108-113 | min(10, rows) responses, ordered descending on the selected column, drawn from the table, and the first of the ordered table |
| PlayerService.TopTenHoldsTheGreatest | src/main/java/org/ersandev/nbazone/player/PlayerServiceImpl.java:108-113 | every stored row left out of the top ten ranks no higher than the last one returned |
| PlayerService.TopTenOfEmptyTable | src/test/java/org/ersandev/nbazone/player/PlayerServiceImplTest.java:361-375 | an empty table gives an empty top ten, not an error |
| PlayerService.TopTenFilterTokens | src/test/java/org/ersandev/nbazone/player/PlayerServiceImplTest.java:335-375 | "reb" and "dreb" select their statistic; "REB", "points", "pts" and "rebounds" fall back to the id |
| PlayerService.NewPlayer | src/main/java/org/ersandev/nbazone/player/PlayerServiceImpl.java:117-118 | `dtoToEntity` then `save` builds the row field by field: the identity value as id, the name, and the payload's team, age and statistics |
| PlayerService.AddPlayer | src/main/java/org/ersandev/nbazone/player/PlayerServiceImpl.java:116-120 | keeps the table valid; succeeds exactly when the name is present and unused; a null name fails the non-null column and a used name the unique one, both leaving the table unchanged; on success exactly one row is appended with the next id and the payload's columns |
| PlayerService.AddingTwiceConflicts | src/main/java/org/ersandev/nbazone/player/Player.java:21 | adding the same payload again is a conflict and changes nothing |
| PlayerService.Merge | src/main/java/org/ersandev/nbazone/player/PlayerServiceImpl.java:127-128 | the id is kept and the age always copied; a non-null name, team or statistic overwrites its column and a null one keeps it |
| PlayerService.MergeIsIdempotent | src/main/java/org/ersandev/nbazone/player/PlayerServiceImpl.java:127-128 | merging the same payload twice equals merging it once |
| PlayerService.MergeOfNullsKeepsRow | src/main/java/org/ersandev/nbazone/player/PlayerServiceImpl.java:127-128 | a payload of nulls with the stored age leaves the row unchanged |
| PlayerService.MergeZeroesOmittedAge | src/main/java/org/ersandev/nbazone/player/PlayerServiceImpl.java:127-128 | an omitted age overwrites the stored one with 0 while an omitted statistic keeps its column |
| PlayerService.FullPayloadDeterminesRow | src/main/java/org/ersandev/nbazone/player/PlayerServiceImpl.java:127-128 | a payload with every field present gives the same row whatever was stored under that id |
| PlayerService.ReplaceAt | src/main/java/org/ersandev/nbazone/player/PlayerServiceImpl.java:130 | saving in place changes only the one position |
| PlayerService.UpdatePlayer | src/main/java/org/ersandev/nbazone/player/PlayerServiceImpl.java:123-132 | a missing id is `PlayerNotFound` with no write; otherwise a conflict exactly when another row has the merged name, and on success the id finds the merged row, every other id finds what it found before, and the table stays valid |
| PlayerService.ReplacedRowKeepsOthers | src/main/java/org/ersandev/nbazone/player/PlayerServiceImpl.java:127-130 | replacing a row by one with the same id and an unused name keeps the table valid and every other lookup unchanged |
| PlayerService.ReplaceKeepsValid | src/main/java/org/ersandev/nbazone/player/Player.java:17-22 | such a replacement keeps identities and names distinct |
| PlayerService.RemoveAt | src/main/java/org/ersandev/nbazone/player/PlayerServiceImpl.java:140 | removing a position keeps the other rows in order |
| PlayerService.RemovedRowOnly | src/main/java/org/ersandev/nbazone/player/PlayerServiceImpl.java:137-140 | removing a row keeps the table valid and drops exactly the rows with its id |
| PlayerService.RemoveKeepsValid | src/main/java/org/ersandev/nbazone/player/Player.java:17-22 | removing a row keeps identities and names distinct |
| PlayerService.DeletePlayer | src/main/java/org/ersandev/nbazone/player/PlayerServiceImpl.java:136-141 | `PlayerNotFound` exactly when the id is missing, with no write; otherwise exactly that row is gone and the rest are kept |
| PlayerController.IsAdmin | src/main/java/org/ersandev/nbazone/player/PlayerController.java:134 | `hasRole('ADMIN')` holds exactly when the caller holds the authority the admin role grants, `ROLE_ADMIN` |
| PlayerController.CreatePlayer | src/main/java/org/ersandev/nbazone/player/PlayerController.java:127-132 | an invalid payload is rejected before any write; a valid one is exactly the service add, never trips the non-null column, and stores a non-blank name and team and a positive age |
| PlayerController.UpdatePlayer | src/main/java/org/ersandev/nbazone/player/PlayerController.java:134-149 | validation first, then the admin check; an admin with a valid payload gets exactly the service update; only then can the table change, and a stored age is positive |
| PlayerController.DeletePlayer | src/main/java/org/ersandev/nbazone/player/PlayerController.java:152-165 | a non-admin is forbidden; an admin gets exactly the service delete; the table changes only for an admin and an existing id |
| Roles.ExistsByRoleNameIsMembership | src/main/java/org/ersandev/nbazone/security/config/RoleInitializer.java:22 | `existsByRoleName` holds exactly when some stored row holds the role |
| Roles.FindByRoleName | src/main/java/org/ersandev/nbazone/user/AuthController.java:100-101 | the row found holds the role, and there is none exactly when no row holds it; with at most one row per role it is the only row holding it |
| Roles.FindIn | src/main/java/org/ersandev/nbazone/user/AuthController.java:100-101 | a row of a run holding the role: the row found holds it and comes from the run, and there is none exactly when no row holds it |
| RoleInitializer.MissingFrom | src/main/java/org/ersandev/nbazone/security/config/RoleInitializer.java:21-22 | the roles of the enumeration without a row, in order; empty when every role has one |
| RoleInitializer.NamesOf | src/main/java/org/ersandev/nbazone/security/config/RoleInitializer.java:24 | the role names of a run of rows, position by position |
| RoleInitializer.SeedOne | src/main/java/org/ersandev/nbazone/security/config/RoleInitializer.java:22-26 | afterwards the role exists and nothing else changed existence; existing rows are kept; no role gets a second row |
| RoleInitializer.MissingStep | src/main/java/org/ersandev/nbazone/security/config/RoleInitializer.java:21-22 | one more role of the enumeration adds it to the missing list exactly when it has no row |
| RoleInitializer.NextRoleUntouched | src/main/java/org/ersandev/nbazone/security/config/RoleInitializer.java:21-22 | the loop has not touched the role it is about to check |
| RoleInitializer.KeepsRowsStep | src/main/java/org/ersandev/nbazone/security/config/RoleInitializer.java:22-26 | an iteration keeps the rows present at the start |
| RoleInitializer.CoversRolesStep | src/main/java/org/ersandev/nbazone/security/config/RoleInitializer.java:21-26 | after an iteration the roles handled so far all exist |
| RoleInitializer.AddedRowsStep | src/main/java/org/ersandev/nbazone/security/config/RoleInitializer.java:22-26 | an iteration appends the saved row, if any |
| RoleInitializer.AddedNamesStep | src/main/java/org/ersandev/nbazone/security/config/RoleInitializer.java:22-26 | an iteration appends the role's name exactly when the role had no row |
| RoleInitializer.AddsMissingStep | src/main/java/org/ersandev/nbazone/security/config/RoleInitializer.java:21-26 | the rows added so far are exactly the missing roles handled so far |
| RoleInitializer.FreshIdsStep | src/main/java/org/ersandev/nbazone/security/config/RoleInitializer.java:24-25 | added rows take consecutive identity values |
| RoleInitializer.ProgressStep | src/main/java/org/ersandev/nbazone/security/config/RoleInitializer.java:21-28 | one iteration keeps the loop invariant |
| RoleInitializer.RunEstablishes | src/main/java/org/ersandev/nbazone/security/config/RoleInitializer.java:18-28 | after the whole enumeration every role exists, the added rows are the missing roles, and a table that had them all is unchanged |
| RoleInitializer.Run | src/main/java/org/ersandev/nbazone/security/config/RoleInitializer.java:18-28 | every role has a row afterwards; existing rows are kept; the added rows are exactly the missing roles in enumeration order with fresh ids; no role gets a second row; a second run adds nothing |
| AuthController.ExistsByUsername | src/main/java/org/ersandev/nbazone/user/AuthController.java:83 | `existsByUsername` holds exactly when some stored user has the username |
| AuthController.ExistsByEmail | src/main/java/org/ersandev/nbazone/user/AuthController.java:86 | `existsByEmail` holds exactly when some stored user has the email |
| AuthController.RoleFor | src/main/java/org/ersandev/nbazone/user/AuthController.java:106-116 | the switch sends exactly "admin" (case-sensitive) to the admin role, every other name to the user role |
| AuthController.RequestedRoles | src/main/java/org/ersandev/nbazone/user/AuthController.java:97-118 | no role set means the user role; otherwise admin exactly when "admin" is requested and user exactly when some other string is |
| AuthController.ResolveRoles | src/main/java/org/ersandev/nbazone/user/AuthController.java:97-118 | `RoleNotFound` exactly when a needed role has no row; otherwise stored role rows whose names are exactly the requested roles |
| AuthController.NewUser | src/main/java/org/ersandev/nbazone/user/AuthController.java:91-94 | the user row is built field by field: the next id, the submitted username and email, the password only as the encoder's output, and the resolved roles |
| AuthController.RegisterUser | src/main/java/org/ersandev/nbazone/user/AuthController.java:81-124 | as written: fails only on a missing role row, writing nothing; otherwise appends one user with the next id, the submitted username and email, the encoded password and the resolved roles, and reports success |
| AuthController.DuplicateUsernameStillRegisters | src/main/java/org/ersandev/nbazone/user/AuthController.java:83-85 | as written, a taken username (with a resolvable role set) still reaches the save, reports success and leaves two accounts with that username |
| AuthController.RegisterUserChecked | src/main/java/org/ersandev/nbazone/user/AuthController.java:83-88 | a taken username, then a used email, is refused with no write; otherwise it behaves as the written signup |
| AuthController.CheckedSignupKeepsAccountsUnique | src/main/java/org/ersandev/nbazone/user/User.java:18-22 | the checked signup keeps usernames and emails unique |
| AuthController.NullRoleSetGivesUser | src/main/java/org/ersandev/nbazone/user/AuthController.java:100-103 | no role set gives exactly the user role row |
| AuthController.AdminOnlyGivesAdmin | src/main/java/org/ersandev/nbazone/user/AuthController.java:105-110 | {"admin"} gives exactly the admin role row, without the user role |
| AuthController.EmptyRoleSetGivesNone | src/main/java/org/ersandev/nbazone/user/AuthController.java:104-118 | an empty role set gives no roles at all |
| AuthController.CapitalisedAdminGivesUser | src/main/java/org/ersandev/nbazone/user/AuthController.java:106-116 | "Admin" is not "admin": it asks for the user role |
| AuthController.NewUserJwtInfoResponse | src/main/java/org/ersandev/nbazone/security/response/UserJwtInfoResponse.java:12-17 | the four-argument constructor takes its parameters in the order (id, token, roles, username) and stores each in its field |
| AuthController.AuthenticateUser | src/main/java/org/ersandev/nbazone/user/AuthController.java:39-70 | as written: bad credentials exactly when authentication fails; otherwise the cookie header is set and the body carries the username as token and the cookie as username |
| AuthController.SignInBodyNamesTheCookie | src/main/java/org/ersandev/nbazone/user/AuthController.java:64-65 | as written, the sign-in body's username differs from the user-info body's whenever the cookie differs from the name |
| AuthController.AuthenticateUserFixed | src/main/java/org/ersandev/nbazone/security/response/UserJwtInfoResponse.java:12-17 | with the declared argument order the token is the cookie and the body otherwise equals the user-info body |
| AuthController.GetUserDetails | src/main/java/org/ersandev/nbazone/user/AuthController.java:136-153 | the user-info body carries no token, and its id, username and roles are the principal's |
| AuthController.CurrentUsername | src/main/java/org/ersandev/nbazone/user/AuthController.java:127-133 | the authentication's name, or "" without an authentication |

## Left out

- HTTP routing, `ResponseEntity`, status codes, Swagger annotations and Lombok boilerplate: exceptions are the `Error` and `SignupError` values, and the exception-to-status mapping of `GlobalExceptionHandler` is not modelled.
- JWT signing, parsing and cookie handling (`JwtUtils`, `JwtAuthenticationFilter`, `CustomUserDetailsService`): the issued cookie is an input string, and `signoutUser` only sets a clearing cookie, so it is not modelled.
- Spring's `AuthenticationManager` and the `PasswordEncoder`: the first is an input verdict (`Option<Principal>`), the second an uninterpreted function parameter.
- `Double` statistics are integers; floating-point rounding and NaN are out of scope.
- NULL ordering in `ORDER BY` is vendor-specific; the model sorts NULL below every value (lowest first ascending, last descending).
- The database's order among rows with equal keys is unspecified; the model's sort happens to keep table order, but no contract states it, so tie order is one admissible choice, not a promise.
- PlayerService.PagesTileSortedTable: the tiling is proved for one fixed ordering of the table, as if every page query broke ties the same way; the program runs a separate `ORDER BY … LIMIT/OFFSET` query per page, and the database does not promise a consistent order among tied rows across them, so with tied keys at a page boundary a row may appear on two pages and another on none.
- PlayerRepository.TopTenField: the `CASE WHEN :filter = 'reb'` comparison is modelled as exact, case-sensitive string equality; in the database it follows the column collation, and under a case-insensitive collation (MySQL's and MariaDB's defaults) "REB" would select the rebounds column.
- PlayerService.TopTenFilterTokens: "REB" falling back to the id holds only under a case-sensitive collation, for the same reason.
- String equality inside queries and unique columns (`findAllByPlayerName`, the unique `player` column behind `NameTaken`) is likewise modelled as exact comparison, which assumes a case-sensitive collation.
- Spring Data JPA 2.x, which truncated a page offset above `Integer.MAX_VALUE` instead of refusing it, is not modelled: the project imports `jakarta.*`, so the model follows 3.x and answers `OffsetTooLarge`. The inputs `page` and `size` are not bounded to Java's `int` range; a page index beyond it with a positive size is refused by the offset check anyway.
- The console messages `RoleInitializer.run` prints (start-up and each role added) are output only and are not modelled.
- Page metadata (total pages, total elements) is not modelled, only the page content.
- Whether Spring Data ever answers an `Optional<List>` finder with an absent value is not visible in the repository: it is the input `absent`.
- Database-enforced uniqueness of the users table, transactions (`@Transactional`) and concurrency are not modelled; the player table's unique, non-null `player` column is modelled as a save failure.
- `updatePlayer` reconfigures the shared `ModelMapper` globally to skip nulls; the model applies that rule to the update merge only and does not model its effect on later mappings elsewhere.
- `SignupRequest`'s `@Valid` constraints are not modelled; `AppRole` is assumed to declare `ROLE_USER` then `ROLE_ADMIN`.
- Text.EqualsIgnoreCase: modelled with ASCII case folding; Java's `equalsIgnoreCase` also folds other letters, which is not modelled.
- `authenticateUser` stores the authentication in the security context (`SecurityContextHolder`) before answering; that side effect on per-request security state is not modelled.
- Roles.FindByRoleName: Spring Data's single-result finder throws (a server error) when two rows hold the same role; the model answers one of them instead. The seeding in `RoleInitializer.run` never creates such a table (`RoleInitializer.Run` keeps at most one row per role), so the case is not modelled.
- Roles.FindIn: the same: duplicate rows for one role are answered with a row rather than the finder's exception.
- PlayerService.AddPlayer: a failed insert is modelled as leaving the identity counter alone, so the next successful add gets exactly the next value; a database sequence or auto-increment may consume a value on the failed insert, so in the program ids only grow, possibly with gaps.
- A `null` element inside the requested role set is not modelled.
- `getUserDetails` with no authentication throws a `NullPointerException`; the model takes a principal.
- PlayerRepository.Filter: states membership, multiplicity and the all/none cases, not the full "same relative order" promise of the finders.
- PlayerService.GetPlayersFromTeam: a present but empty answer is the empty list; only an absent answer is `TeamNotFound`, which is what the code does, although the endpoint documents 404 "Team not found" (PlayerController.java:41), which an existing but empty team never produces.

## Findings

| source | as written | input that shows it | evidently intended | confidence | as-written member | corrected member |
|---|---|---|---|---|---|---|
| src/main/java/org/ersandev/nbazone/user/AuthController.java:83-88 | the "Username is already taken!" and "Email is already in use!" responses are built and dropped, so control always reaches the save | sign up with a username that an existing user has: registration proceeds to the save and reports success (the users table's unique constraint, not modelled, would then fail the save instead of answering 400) | return the bad-request response and write nothing | not executed | AuthController.DuplicateUsernameStillRegisters | AuthController.CheckedSignupKeepsAccountsUnique |
| src/main/java/org/ersandev/nbazone/user/AuthController.java:64-65 | `new UserJwtInfoResponse(id, username, roles, cookie)` against the constructor `(id, token, roles, username)` | any successful sign-in whose cookie text differs from the username: the body's `token` is the username and its `username` is the cookie | `token` = cookie, `username` = the user's name | not executed | AuthController.SignInBodyNamesTheCookie | AuthController.AuthenticateUserFixed |

=== FILE: auth.dfy ===
/** `AuthController`: signup with role resolution, the sign-in response, and
    the current-user lookups. Token signing, cookie handling and credential
    checking belong to collaborators and enter as inputs. */
module AuthController {
  import opened Wrappers
  import opened Roles

  /** The signup payload; `role` is the optional set of requested role names. */
  datatype SignupRequest = SignupRequest(username: string, email: string, password: string, role: Option<set<string>>)

  /** A row of the users table with its joined roles. */
  datatype User = User(id: int, username: string, email: string, password: string, roles: set<Role>)

  /** The users table and the next value of its identity column. */
  datatype UserTable = UserTable(rows: seq<User>, nextId: int)

  /** What signup can fail with. */
  datatype SignupError =
    | RoleNotFound      // RuntimeException("Error: Role is not found.")
    | UsernameTaken     // bad request "Username is already taken!"
    | EmailInUse        // bad request "Email is already in use!"

  /** A signup's outcome: the users table afterwards, and the message or error. */
  datatype Registration = Registration(users: UserTable, result: Result<string, SignupError>)

  const RegisteredMessage := "User registered successfully!"

  /** `existsByUsername`: some stored user has that username. */
  predicate ExistsByUsername(users: UserTable, username: string)
    ensures ExistsByUsername(users, username) <==> exists u :: u in users.rows && u.username == username
  {
    exists i :: 0 <= i < |users.rows| && users.rows[i].username == username
  }

  /** `existsByEmail`: some stored user has that email. */
  predicate ExistsByEmail(users: UserTable, email: string)
    ensures ExistsByEmail(users, email) <==> exists u :: u in users.rows && u.email == email
  {
    exists i :: 0 <= i < |users.rows| && users.rows[i].email == email
  }

  /** The role one requested name stands for: exactly "admin" (case-sensitive)
      is the admin role, every other string the user role. */
  function RoleFor(name: string): (r: AppRole)
    ensures r == RoleAdmin <==> name == "admin"
  {
    if name == "admin" then RoleAdmin else RoleUser
  }

  /** The roles a signup asks for: the user role when no set is sent,
      otherwise the union of what each requested name stands for. */
  function RequestedRoles(requested: Option<set<string>>): (r: set<AppRole>)
    ensures requested.None? ==> r == {RoleUser}
    ensures requested.Some? ==> (RoleAdmin in r <==> "admin" in requested.value)
    ensures requested.Some? ==> (RoleUser in r <==> exists n :: n in requested.value && n != "admin")
  {
    match requested
    case None => {RoleUser}
    case Some(names) =>
      var r := set n | n in names :: RoleFor(n);
      assert "admin" in names ==> RoleFor("admin") in r;
      r
  }

  /** Looks every requested role up in the roles table; a missing row throws
      before anything is saved. */
  function ResolveRoles(requested: Option<set<string>>, roles: RoleTable): (r: Result<set<Role>, SignupError>)
    ensures r.Failure? <==> exists a :: a in RequestedRoles(requested) && !ExistsByRoleName(roles, a)
    ensures r.Failure? ==> r.error == RoleNotFound
    ensures r.Success? ==> forall x :: x in r.value ==> x in roles.rows
    ensures r.Success? ==> forall a :: (exists x :: x in r.value && x.roleName == a) <==> a in RequestedRoles(requested)
  {
    var wanted := RequestedRoles(requested);
    if forall a :: a in wanted ==> FindByRoleName(roles, a).Some? then
      var found := set a | a in wanted :: FindByRoleName(roles, a).value;
      assert forall a :: a in wanted ==> FindByRoleName(roles, a).value in found;
      Success(found)
    else
      Failure(RoleNotFound)
  }

  /** The user row signup builds: the password is stored only through the encoder. */
  function NewUser(users: UserTable, req: SignupRequest, encode: string -> string, roles: set<Role>): (u: User)
    ensures u.id == users.nextId && u.username == req.username && u.email == req.email
    ensures u.password == encode(req.password) && u.roles == roles
  {
    User(users.nextId, req.username, req.email, encode(req.password), roles)
  }

  /** `registerUser` as written. The username and email lookups build a
      bad-request response and drop it, so neither stops the registration:
      the only failure is a missing role row, and otherwise the user is saved
      with the encoded password and the call reports success. */
  function RegisterUser(users: UserTable, roles: RoleTable, req: SignupRequest, encode: string -> string): (r: Registration)
    ensures r.result.Failure? <==> ResolveRoles(req.role, roles).Failure?
    ensures r.result.Failure? ==> r.result.error == RoleNotFound && r.users == users
    ensures r.result.Success? ==>
              && r.result.value == RegisteredMessage
              && r.users.nextId == users.nextId + 1
              && |r.users.rows| == |users.rows| + 1
              && r.users.rows[..|users.rows|] == users.rows
              && var u := r.users.rows[|users.rows|];
                 u.id == users.nextId && u.username == req.username && u.email == req.email
                 && u.password == encode(req.password) && Success(u.roles) == ResolveRoles(req.role, roles)
  {
    var _ := ExistsByUsername(users, req.username);
    var _ := ExistsByEmail(users, req.email);
    match ResolveRoles(req.role, roles)
    case Failure(e) => Registration(users, Failure(e))
    case Success(granted) =>
      var u := NewUser(users, req, encode, granted);
      Registration(UserTable(users.rows + [u], users.nextId + 1), Success(RegisteredMessage))
  }

  /** No two users share a username or an email. */
  predicate UniqueAccounts(users: UserTable) {
    forall i, j :: 0 <= i < j < |users.rows| ==>
      users.rows[i].username != users.rows[j].username && users.rows[i].email != users.rows[j].email
  }

  /** As written, signing up with a username that is already taken still
      reaches the save and reports success; in this model, which leaves the
      users table's unique constraints out, it leaves two users with that name. */
  lemma {:induction false} DuplicateUsernameStillRegisters(users: UserTable, roles: RoleTable, req: SignupRequest, encode: string -> string)
    requires ExistsByUsername(users, req.username)
    requires ResolveRoles(req.role, roles).Success?
    ensures RegisterUser(users, roles, req, encode).result == Success(RegisteredMessage)
    ensures !UniqueAccounts(RegisterUser(users, roles, req, encode).users)
  {
    var r := RegisterUser(users, roles, req, encode);
    var i :| 0 <= i < |users.rows| && users.rows[i].username == req.username;
    assert r.users.rows[i] == users.rows[i];
    assert r.users.rows[|users.rows|].username == req.username;
  }

  /** `registerUser` with the checks returning their bad-request responses:
      a taken username or email stops the signup and writes nothing. */
  function RegisterUserChecked(users: UserTable, roles: RoleTable, req: SignupRequest, encode: string -> string): (r: Registration)
    ensures ExistsByUsername(users, req.username) ==> r == Registration(users, Failure(UsernameTaken))
    ensures !ExistsByUsername(users, req.username) && ExistsByEmail(users, req.email) ==> r == Registration(users, Failure(EmailInUse))
    ensures !ExistsByUsername(users, req.username) && !ExistsByEmail(users, req.email) ==> r == RegisterUser(users, roles, req, encode)
  {
    if ExistsByUsername(users, req.username) then Registration(users, Failure(UsernameTaken))
    else if ExistsByEmail(users, req.email) then Registration(users, Failure(EmailInUse))
    else RegisterUser(users, roles, req, encode)
  }

  /** The checked signup keeps usernames and emails unique. */
  lemma {:induction false} CheckedSignupKeepsAccountsUnique(users: UserTable, roles: RoleTable, req: SignupRequest, encode: string -> string)
    requires UniqueAccounts(users)
    ensures UniqueAccounts(RegisterUserChecked(users, roles, req, encode).users)
  {
    var r := RegisterUserChecked(users, roles, req, encode);
    if r.users != users {
      var n := |users.rows|;
      forall i, j | 0 <= i < j < |r.users.rows|
        ensures r.users.rows[i].username != r.users.rows[j].username && r.users.rows[i].email != r.users.rows[j].email
      {
        assert r.users.rows[i] == users.rows[i];
        if j < n {
          assert r.users.rows[j] == users.rows[j];
        }
      }
    }
  }

  /** The authenticated user as the security context holds it. */
  datatype Principal = Principal(id: int, username: string, authorities: seq<string>)

  /** The sign-in / user-info response body. */
  datatype UserJwtInfoResponse = UserJwtInfoResponse(id: int, token: Option<string>, username: string, roles: seq<string>)

  /** The four-argument constructor, whose parameters are declared in the
      order (id, token, roles, username). */
  function NewUserJwtInfoResponse(id: int, token: string, roles: seq<string>, username: string): (r: UserJwtInfoResponse)
    ensures r.id == id && r.token == Some(token) && r.roles == roles && r.username == username
  {
    UserJwtInfoResponse(id, Some(token), username, roles)
  }

  /** The answer to a sign-in: a bad-credentials body (HTTP 404, status false),
      or the body together with the `Set-Cookie` header value. */
  datatype SignInReply = BadCredentials | SignedIn(setCookie: string, body: UserJwtInfoResponse)

  /** `authenticateUser` as written. `authenticated` is the authentication
      manager's verdict (`None` when it throws) and `jwtCookie` the cookie
      issued for that user. The constructor receives the username where it
      expects the token and the cookie where it expects the username. */
  function AuthenticateUser(authenticated: Option<Principal>, jwtCookie: string): (r: SignInReply)
    ensures r.BadCredentials? <==> authenticated.None?
    ensures r.SignedIn? ==>
              var p := authenticated.value;
              && r.setCookie == jwtCookie && r.body.id == p.id && r.body.roles == p.authorities
              && r.body.token == Some(p.username) && r.body.username == jwtCookie
  {
    match authenticated
    case None => BadCredentials
    case Some(p) => SignedIn(jwtCookie, NewUserJwtInfoResponse(p.id, p.username, p.authorities, jwtCookie))
  }

  /** `authenticateUser` with the arguments in the declared order. */
  function AuthenticateUserFixed(authenticated: Option<Principal>, jwtCookie: string): (r: SignInReply)
    ensures r.BadCredentials? <==> authenticated.None?
    ensures r.SignedIn? ==>
              var p := authenticated.value;
              && r.setCookie == jwtCookie && r.body.token == Some(jwtCookie)
              && r.body == GetUserDetails(p).(token := Some(jwtCookie))
  {
    match authenticated
    case None => BadCredentials
    case Some(p) => SignedIn(jwtCookie, NewUserJwtInfoResponse(p.id, jwtCookie, p.authorities, p.username))
  }

  /** `getUserDetails`: the three-argument constructor, no token; the body
      describes the authenticated principal. */
  function GetUserDetails(p: Principal): (r: UserJwtInfoResponse)
    ensures r.token.None?
    ensures r.id == p.id && r.username == p.username && r.roles == p.authorities
  {
    UserJwtInfoResponse(p.id, None, p.username, p.authorities)
  }

  /** As written, the sign-in body disagrees with the user-info body about the
      user's name whenever the cookie text differs from it. */
  lemma SignInBodyNamesTheCookie(p: Principal, jwtCookie: string)
    requires jwtCookie != p.username
    ensures AuthenticateUser(Some(p), jwtCookie).body.username != GetUserDetails(p).username
    ensures AuthenticateUser(Some(p), jwtCookie).body.token == Some(p.username)
  {
  }

  /** `currentUsername`: the authentication's name, or "" without one. */
  function CurrentUsername(authentication: Option<Principal>): (r: string)
    ensures authentication.None? ==> r == ""
    ensures authentication.Some? ==> r == authentication.value.username
  {
    match authentication
    case None => ""
    case Some(p) => p.username
  }

  /** A null requested set yields exactly the user role row. */
  lemma NullRoleSetGivesUser(roles: RoleTable)
    requires ExistsByRoleName(roles, RoleUser)
    ensures ResolveRoles(None, roles) == Success({FindByRoleName(roles, RoleUser).value})
  {
    var wanted := RequestedRoles(None);
    assert wanted == {RoleUser};
    var found := set a | a in wanted :: FindByRoleName(roles, a).value;
    assert found == {FindByRoleName(roles, RoleUser).value};
  }

  /** {"admin"} yields exactly the admin role, without the user role. */
  lemma AdminOnlyGivesAdmin(roles: RoleTable)
    requires ExistsByRoleName(roles, RoleAdmin)
    ensures ResolveRoles(Some({"admin"}), roles) == Success({FindByRoleName(roles, RoleAdmin).value})
  {
    var wanted := RequestedRoles(Some({"admin"}));
    assert wanted == {RoleAdmin} by {
      assert forall a :: a in wanted ==> a == RoleAdmin;
    }
    var found := set a | a in wanted :: FindByRoleName(roles, a).value;
    assert found == {FindByRoleName(roles, RoleAdmin).value};
  }

  /** A present but empty requested set yields no roles at all. */
  lemma EmptyRoleSetGivesNone(roles: RoleTable)
    ensures ResolveRoles(Some({}), roles) == Success({})
  {
    var r := ResolveRoles(Some({}), roles);
    assert RequestedRoles(Some({})) == {};
    assert r.Success?;
    assert forall x :: x in r.value ==> x.roleName in RequestedRoles(Some({}));
    assert r.value == {};
  }

  /** The match on "admin" is case-sensitive: "Admin" asks for the user role. */
  lemma CapitalisedAdminGivesUser()
    ensures RequestedRoles(Some({"Admin"})) == {RoleUser}
  {
    assert RoleFor("Admin") == RoleUser;
  }
}

=== FILE: controller.dfy ===
/** The guards `PlayerController` puts in front of the writes: `@Valid` on the
    payload and `@PreAuthorize("hasRole('ADMIN')")` on update and delete.
    Bean validation runs while the handler's arguments are resolved, which is
    before the method-security proxy is entered, so a malformed payload is
    rejected before the role is looked at. */
module PlayerController {
  import opened Wrappers
  import opened Text
  import opened Players
  import opened PlayerRepository
  import opened Validation
  import opened Roles
  import PlayerService

  /** The prefix Spring Security's `hasRole` puts in front of a role name. */
  const RolePrefix := "ROLE_"

  /** `hasRole('ADMIN')`: the caller holds the prefixed role name as an
      authority, which is exactly the authority the admin role grants. */
  predicate IsAdmin(authorities: set<string>)
    ensures IsAdmin(authorities) <==> RoleAdmin.Name() in authorities
  {
    assert RolePrefix + "ADMIN" == RoleAdmin.Name();
    RolePrefix + "ADMIN" in authorities
  }

  /** `createPlayer`: the payload is validated, then added. A payload that
      passes never trips the non-null column, and what it stores has a
      non-blank name and team and a positive age. */
  function CreatePlayer(st: Store, req: PlayerRequest): (r: PlayerService.Reply<PlayerResponse>)
    requires Valid(st)
    ensures Valid(r.store)
    ensures !IsValid(req) ==> r == PlayerService.Reply(st, Failure(ValidationFailed))
    ensures IsValid(req) ==> r == PlayerService.AddPlayer(st, req)
    ensures r.result != Failure(NotNullViolation)
    ensures r.result.Success? ==>
              var p := ToEntity(r.result.value);
              NotBlank(p.name) && p.team.Some? && NotBlank(p.team.value) && p.age >= 1
  {
    if !IsValid(req) then PlayerService.Reply(st, Failure(ValidationFailed))
    else
      assert PlayerName !in Violations(req) && Team !in Violations(req) && Age !in Violations(req);
      PlayerService.AddPlayer(st, req)
  }

  /** `updatePlayer`: validated payload, admin only, then the service update.
      Only an admin with a valid payload can change the table, and a stored
      age never drops to the primitive default. */
  function UpdatePlayer(st: Store, authorities: set<string>, id: int, req: PlayerRequest): (r: PlayerService.Reply<PlayerResponse>)
    requires Valid(st)
    ensures Valid(r.store)
    ensures !IsValid(req) ==> r == PlayerService.Reply(st, Failure(ValidationFailed))
    ensures IsValid(req) && !IsAdmin(authorities) ==> r == PlayerService.Reply(st, Failure(Forbidden))
    ensures IsValid(req) && IsAdmin(authorities) ==> r == PlayerService.UpdatePlayer(st, id, req)
    ensures r.store != st ==> IsAdmin(authorities) && IsValid(req)
    ensures r.result.Success? ==> ToEntity(r.result.value).age >= 1
  {
    if !IsValid(req) then PlayerService.Reply(st, Failure(ValidationFailed))
    else if !IsAdmin(authorities) then PlayerService.Reply(st, Failure(Forbidden))
    else
      assert Age !in Violations(req);
      PlayerService.UpdatePlayer(st, id, req)
  }

  /** `deletePlayer`: admin only, then the service delete. */
  function DeletePlayer(st: Store, authorities: set<string>, id: int): (r: PlayerService.Reply<()>)
    requires Valid(st)
    ensures Valid(r.store)
    ensures !IsAdmin(authorities) ==> r == PlayerService.Reply(st, Failure(Forbidden))
    ensures IsAdmin(authorities) ==> r == PlayerService.DeletePlayer(st, id)
    ensures r.store != st ==> IsAdmin(authorities) && FindById(st.rows, id).Some?
  {
    if !IsAdmin(authorities) then PlayerService.Reply(st, Failure(Forbidden))
    else PlayerService.DeletePlayer(st, id)
  }
}

=== FILE: ordering.dfy ===
/** Ordering rows by one column, in either direction, as `ORDER BY` does.
    The database's sort is modelled by a stable insertion sort. */
module Ordering {
  import opened Wrappers
  import opened Players

  datatype Direction = Asc | Desc

  /** Order on column values: NULL sorts below every number. */
  predicate KeyLe(a: Option<int>, b: Option<int>) {
    a.None? || (b.Some? && a.value <= b.value)
  }

  /** `p` may come before `q` when ordering by `f` in direction `d`. */
  predicate Before(f: SortField, d: Direction, p: Player, q: Player) {
    match d
    case Asc => KeyLe(KeyOf(p, f), KeyOf(q, f))
    case Desc => KeyLe(KeyOf(q, f), KeyOf(p, f))
  }

  predicate Sorted(f: SortField, d: Direction, s: seq<Player>) {
    forall i, j :: 0 <= i < j < |s| ==> Before(f, d, s[i], s[j])
  }

  /** Places `p` in front of the first row it may precede. */
  function Insert(f: SortField, d: Direction, p: Player, s: seq<Player>): (r: seq<Player>)
    requires Sorted(f, d, s)
    ensures Sorted(f, d, r)
    ensures multiset(r) == multiset(s) + multiset{p}
    ensures |r| == |s| + 1
  {
    if |s| == 0 then [p]
    else if Before(f, d, p, s[0]) then [p] + s
    else
      var rest := Insert(f, d, p, s[1..]);
      assert forall j :: 0 <= j < |rest| ==> Before(f, d, s[0], rest[j]) by {
        forall j | 0 <= j < |rest|
          ensures Before(f, d, s[0], rest[j])
        {
          assert rest[j] in multiset(rest);
          if rest[j] != p {
            assert rest[j] in multiset(s[1..]);
            var k :| 0 <= k < |s[1..]| && s[1..][k] == rest[j];
            assert s[k + 1] == rest[j];
          }
        }
      }
      assert s == [s[0]] + s[1..];
      [s[0]] + rest
  }

  /** The rows of `s` ordered by column `f` in direction `d`. Rows with equal
      keys are left in one admissible order (by construction, table order);
      the contract does not promise any particular one. */
  function SortBy(f: SortField, d: Direction, s: seq<Player>): (r: seq<Player>)
    ensures Sorted(f, d, r)
    ensures multiset(r) == multiset(s)
    ensures |r| == |s|
  {
    if |s| == 0 then []
    else
      assert s == [s[0]] + s[1..];
      Insert(f, d, s[0], SortBy(f, d, s[1..]))
  }

  /** In a sorted sequence every row past the first `n` may follow row `n - 1`. */
  lemma RestFollowsPrefix(f: SortField, d: Direction, s: seq<Player>, n: nat, p: Player)
    requires Sorted(f, d, s) && 0 < n <= |s|
    requires p in multiset(s) - multiset(s[..n])
    ensures Before(f, d, s[n - 1], p)
  {
    assert s == s[..n] + s[n..];
    assert multiset(s) == multiset(s[..n]) + multiset(s[n..]);
    assert p in multiset(s[n..]);
    var j :| 0 <= j < |s[n..]| && s[n..][j] == p;
    assert s[n + j] == p;
  }

  /** The number of rows a page of `size` rows from `offset` on holds. */
  function PageLength(total: nat, offset: nat, size: nat): nat {
    if offset >= total then 0 else if total - offset < size then total - offset else size
  }

  /** The rows a page request selects: at most `size` rows from `offset` on. */
  function Slice<T>(s: seq<T>, offset: nat, size: nat): (r: seq<T>)
    ensures |r| <= size
    ensures |r| == PageLength(|s|, offset, size)
    ensures forall i :: 0 <= i < |r| ==> offset + i < |s| && r[i] == s[offset + i]
  {
    if offset >= |s| then []
    else if |s| - offset < size then s[offset..]
    else s[offset..offset + size]
  }

  /** `page` is page number `index`, of `size` rows each, of `table`: as many
      rows as that page holds, each the row of `table` at its offset. */
  ghost predicate IsPage<T>(page: seq<T>, table: seq<T>, index: nat, size: nat) {
    && |page| == PageLength(|table|, index * size, size)
    && forall i :: 0 <= i < |page| ==> index * size + i < |table| && page[i] == table[index * size + i]
  }

  /** Row `m` of page `index` is row `index * size + m` of the table, whenever
      that row exists and `m` is within the page size. */
  lemma PageHolds<T>(page: seq<T>, table: seq<T>, index: nat, size: nat, m: nat, k: nat)
    requires IsPage(page, table, index, size)
    requires index * size + m == k && m < size && k < |table|
    ensures m < |page| && page[m] == table[k]
  {
  }

  /** The slice at offset `index * size` is page `index`. */
  lemma SliceIsPage<T>(s: seq<T>, index: nat, size: nat, offset: nat)
    requires offset == index * size
    ensures IsPage(Slice(s, offset, size), s, index, size)
  {
  }

  /** A slice of a sorted sequence is sorted. */
  lemma SliceOfSorted(f: SortField, d: Direction, s: seq<Player>, offset: nat, size: nat)
    requires Sorted(f, d, s)
    ensures Sorted(f, d, Slice(s, offset, size))
  {
    var r := Slice(s, offset, size);
    forall i, j | 0 <= i < j < |r|
      ensures Before(f, d, r[i], r[j])
    {
      assert r[i] == s[offset + i] && r[j] == s[offset + j];
    }
  }
}

=== FILE: players.dfy ===
/** The `player_stats` entity, the request and response shapes built from it,
    and the errors the player operations raise. */
module Players {
  import opened Wrappers

  /** The nullable statistic columns of a player row. */
  datatype Stat = Min | Pts | FgPercent | ThreePPercent | FtPercent | Dreb | Reb | Ast | Stl | Blk

  /** A stored row. A statistic absent from `stats` is NULL; present values are
      the column's number in fixed point. `name` is the unique, non-null
      `player` column; `team` has no constraint and may be NULL. */
  datatype Player = Player(id: int, name: string, team: Option<string>, age: int, stats: map<Stat, int>)

  /** The request payload: every reference-typed field may be null (`None`),
      `age` is a primitive `int` and so is never null (an omitted age reads as 0). */
  datatype PlayerRequest = PlayerRequest(name: Option<string>, team: Option<string>, age: int, stats: map<Stat, int>)

  /** The response payload: one field per entity column. */
  datatype PlayerResponse = PlayerResponse(id: int, name: string, team: Option<string>, age: int, stats: map<Stat, int>)

  /** What a player operation can fail with. */
  datatype Error =
    | PlayerNotFound            // PlayerNotFoundException
    | TeamNotFound              // TeamNotFoundException
    | Conflict                  // unique `player` column violated on save
    | NotNullViolation          // NULL written to the non-null `player` column
    | InvalidPageRequest        // PageRequest.of with page < 0 or size < 1
    | OffsetTooLarge            // the page offset page * size exceeds Integer.MAX_VALUE
    | Forbidden                 // the caller lacks ROLE_ADMIN
    | ValidationFailed          // @Valid rejected the payload

  /** The columns a query can order by. */
  datatype SortField = ById | ByAge | ByStat(stat: Stat)

  function StatOf(p: Player, s: Stat): Option<int> {
    if s in p.stats then Some(p.stats[s]) else None
  }

  /** The value of the ordering column for a row; NULL statistics are `None`. */
  function KeyOf(p: Player, f: SortField): Option<int> {
    match f
    case ById => Some(p.id)
    case ByAge => Some(p.age)
    case ByStat(s) => StatOf(p, s)
  }

  /** The response shape read back as an entity. */
  function ToEntity(r: PlayerResponse): Player {
    Player(r.id, r.name, r.team, r.age, r.stats)
  }

  /** The entity-to-response mapping: field by field, nothing lost. */
  function ToResponse(p: Player): (r: PlayerResponse)
    ensures ToEntity(r) == p
  {
    PlayerResponse(p.id, p.name, p.team, p.age, p.stats)
  }

  /** A response list read back as entities. */
  function Entities(rs: seq<PlayerResponse>): (r: seq<Player>)
    ensures |r| == |rs|
  {
    seq(|rs|, i requires 0 <= i < |rs| => ToEntity(rs[i]))
  }

  /** Maps every row to its response, one for one and in order: reading the
      responses back gives exactly the rows. */
  function ToResponses(rows: seq<Player>): (r: seq<PlayerResponse>)
    ensures Entities(r) == rows
  {
    seq(|rows|, i requires 0 <= i < |rows| => ToResponse(rows[i]))
  }
}

=== FILE: repository.dfy ===
/** The `PlayerRepository` contract over an in-memory table: lookup by id, the
    derived finders, paged `findAll`, and the `findTopTenByFilter` query. */
module PlayerRepository {
  import opened Wrappers
  import opened Text
  import opened Players
  import opened Ordering

  /** The player_stats table: its rows in the order `findAll()` yields them,
      and the next value of the identity column. */
  datatype Store = Store(rows: seq<Player>, nextId: int)

  /** Table invariant: identity values are distinct and below the next one,
      and the `player` column is unique. */
  predicate Valid(st: Store) {
    && (forall i :: 0 <= i < |st.rows| ==> st.rows[i].id < st.nextId)
    && (forall i, j :: 0 <= i < j < |st.rows| ==> st.rows[i].id != st.rows[j].id)
    && (forall i, j :: 0 <= i < j < |st.rows| ==> st.rows[i].name != st.rows[j].name)
  }

  /** Some row other than the one with id `except` already uses `name`. */
  predicate NameTaken(rows: seq<Player>, name: string, except: Option<int>) {
    exists i :: 0 <= i < |rows| && rows[i].name == name && Some(rows[i].id) != except
  }

  /** `findById`: the row with identity `id`, if any. */
  function FindById(rows: seq<Player>, id: int): (r: Option<Player>)
    ensures r.Some? ==> r.value in rows && r.value.id == id
    ensures r.None? <==> forall i :: 0 <= i < |rows| ==> rows[i].id != id
  {
    if |rows| == 0 then None
    else if rows[0].id == id then Some(rows[0])
    else
      var r := FindById(rows[1..], id);
      assert forall i :: 1 <= i < |rows| ==> rows[i] == rows[1..][i - 1];
      r
  }

  /** The position of the row with identity `id`, if any. */
  function IndexOfId(rows: seq<Player>, id: int): (r: Option<nat>)
    ensures r.Some? ==> r.value < |rows| && rows[r.value].id == id
    ensures r.None? <==> FindById(rows, id).None?
  {
    if |rows| == 0 then None
    else if rows[0].id == id then Some(0)
    else
      match IndexOfId(rows[1..], id)
      case None => None
      case Some(k) => Some(k + 1)
  }

  /** With distinct identities, `findById` answers with the row at that identity's position. */
  lemma {:induction false} FindByIdAt(st: Store, k: nat)
    requires Valid(st) && k < |st.rows|
    ensures FindById(st.rows, st.rows[k].id) == Some(st.rows[k])
  {
    var r := FindById(st.rows, st.rows[k].id);
    var j :| 0 <= j < |st.rows| && st.rows[j] == r.value;
  }

  /** The rows satisfying `keep`, in table order. */
  function Filter(rows: seq<Player>, keep: Player -> bool): (r: seq<Player>)
    ensures forall p :: p in r <==> p in rows && keep(p)
    ensures multiset(r) <= multiset(rows)
    ensures (forall p :: p in rows ==> !keep(p)) ==> r == []
    ensures (forall p :: p in rows ==> keep(p)) ==> r == rows
  {
    if |rows| == 0 then []
    else
      var rest := Filter(rows[1..], keep);
      assert rows == [rows[0]] + rows[1..];
      if keep(rows[0]) then [rows[0]] + rest else rest
  }

  predicate TeamMatches(p: Player, team: string) {
    p.team.Some? && EqualsIgnoreCase(p.team.value, team)
  }

  /** `findAllByTeamIgnoreCase`. Whether the framework answers with an absent
      `Optional` is not visible in the repository, so it is the input `absent`. */
  function FindAllByTeamIgnoreCase(rows: seq<Player>, team: string, absent: bool): (r: Option<seq<Player>>)
    ensures r.None? <==> absent
    ensures r.Some? ==> forall p :: p in r.value <==> p in rows && TeamMatches(p, team)
    ensures r.Some? ==> multiset(r.value) <= multiset(rows)
  {
    if absent then None else Some(Filter(rows, (p: Player) => TeamMatches(p, team)))
  }

  /** `findAllByPlayerName`: exact, case-sensitive equality. */
  function FindAllByPlayerName(rows: seq<Player>, name: string, absent: bool): (r: Option<seq<Player>>)
    ensures r.None? <==> absent
    ensures r.Some? ==> forall p :: p in r.value <==> p in rows && p.name == name
    ensures r.Some? ==> multiset(r.value) <= multiset(rows)
  {
    if absent then None else Some(Filter(rows, (p: Player) => p.name == name))
  }

  /** `findAllByAge`: exact equality. */
  function FindAllByAge(rows: seq<Player>, age: int, absent: bool): (r: Option<seq<Player>>)
    ensures r.None? <==> absent
    ensures r.Some? ==> forall p :: p in r.value <==> p in rows && p.age == age
    ensures r.Some? ==> multiset(r.value) <= multiset(rows)
  {
    if absent then None else Some(Filter(rows, (p: Player) => p.age == age))
  }

  /** A `Sort`: none, or one column in one direction. */
  datatype Sort = Unsorted | SortOn(field: SortField, dir: Direction)

  /** A validated `Pageable`. */
  datatype PageRequest = PageRequest(page: nat, size: nat, sort: Sort)

  /** `PageRequest.of(page, size, sort)`: rejects a negative page index and a
      size below one with an `IllegalArgumentException`. */
  function PageRequestOf(page: int, size: int, sort: Sort): (r: Result<PageRequest, Error>)
    ensures r.Success? <==> 0 <= page && 1 <= size
    ensures r.Failure? ==> r.error == InvalidPageRequest
    ensures r.Success? ==> r.value.page == page && r.value.size == size && r.value.sort == sort
  {
    if page < 0 || size < 1 then Failure(InvalidPageRequest)
    else Success(PageRequest(page, size, sort))
  }

  /** The table in the order a `Sort` asks for. */
  function Ordered(rows: seq<Player>, sort: Sort): (r: seq<Player>)
    ensures multiset(r) == multiset(rows)
    ensures |r| == |rows|
    ensures sort.SortOn? ==> Sorted(sort.field, sort.dir, r)
  {
    match sort
    case Unsorted => rows
    case SortOn(f, d) => SortBy(f, d, rows)
  }

  /** The largest Java `int`, `Integer.MAX_VALUE`. */
  const IntMax := 0x7FFF_FFFF

  /** The query's first-result position, `page * size`, fits in the `int` that
      the persistence layer takes; a larger offset is refused with an
      `InvalidDataAccessApiUsageException` before the query runs. */
  predicate OffsetFits(pr: PageRequest) {
    pr.page * pr.size <= IntMax
  }

  /** `findAll(pageable)`: the page's slice of the table in the requested order,
      or an error when the page's offset does not fit in an `int`. */
  function FindAllPaged(rows: seq<Player>, pr: PageRequest): (r: Result<seq<Player>, Error>)
    ensures r.Failure? <==> pr.page * pr.size > IntMax
    ensures r.Failure? ==> r.error == OffsetTooLarge
    ensures r.Success? ==> IsPage(r.value, Ordered(rows, pr.sort), pr.page, pr.size)
    ensures r.Success? && pr.sort.SortOn? ==> Sorted(pr.sort.field, pr.sort.dir, r.value)
  {
    if !OffsetFits(pr) then Failure(OffsetTooLarge)
    else
      var all := Ordered(rows, pr.sort);
      var offset := pr.page * pr.size;
      SliceIsPage(all, pr.page, pr.size, offset);
      assert pr.sort.SortOn? ==> Sorted(pr.sort.field, pr.sort.dir, Slice(all, offset, pr.size)) by {
        if pr.sort.SortOn? {
          SliceOfSorted(pr.sort.field, pr.sort.dir, all, offset, pr.size);
        }
      }
      Success(Slice(all, offset, pr.size))
  }

  /** The stat filters the top-ten query recognises, compared case-sensitively. */
  const StatFilters: map<string, Stat> := map["dreb" := Dreb, "reb" := Reb, "ast" := Ast, "stl" := Stl, "blk" := Blk]

  /** The `CASE` expression of `findTopTenByFilter`: a recognised filter selects
      its statistic, every other string falls back to the id. */
  function TopTenField(filter: string): (f: SortField)
    ensures filter in StatFilters ==> f == ByStat(StatFilters[filter])
    ensures filter !in StatFilters ==> f == ById
  {
    if filter == "dreb" then ByStat(Dreb)
    else if filter == "reb" then ByStat(Reb)
    else if filter == "ast" then ByStat(Ast)
    else if filter == "stl" then ByStat(Stl)
    else if filter == "blk" then ByStat(Blk)
    else ById
  }

  /** The requested page of the table ordered descending on column `f`. */
  function DescPage(f: SortField, rows: seq<Player>, pr: PageRequest): (r: seq<Player>)
    ensures IsPage(r, SortBy(f, Desc, rows), pr.page, pr.size)
    ensures Sorted(f, Desc, r)
  {
    var all := SortBy(f, Desc, rows);
    var offset := pr.page * pr.size;
    SliceIsPage(all, pr.page, pr.size, offset);
    SliceOfSorted(f, Desc, all, offset, pr.size);
    Slice(all, offset, pr.size)
  }

  /** `findTopTenByFilter(filter, pageable)`: the table ordered descending by the
      selected column, then cut to the requested page; like `findAll`, an offset
      beyond `Integer.MAX_VALUE` is refused. */
  function FindTopTenByFilter(rows: seq<Player>, filter: string, pr: PageRequest): (r: Result<seq<Player>, Error>)
    requires pr.sort.Unsorted?
    ensures r.Failure? <==> pr.page * pr.size > IntMax
    ensures r.Failure? ==> r.error == OffsetTooLarge
    ensures r.Success? ==> IsPage(r.value, SortBy(TopTenField(filter), Desc, rows), pr.page, pr.size)
    ensures r.Success? ==> Sorted(TopTenField(filter), Desc, r.value)
  {
    if !OffsetFits(pr) then Failure(OffsetTooLarge)
    else Success(DescPage(TopTenField(filter), rows, pr))
  }
}

=== FILE: role_initializer.dfy ===
/** `RoleInitializer.run`: at start-up, every role of the enumeration that has
    no row yet gets one. */
module RoleInitializer {
  import opened Roles

  /** The roles of the enumeration without a row in `t`, in declaration order. */
  function MissingFrom(t: RoleTable, roles: seq<AppRole>): (r: seq<AppRole>)
    ensures forall a :: a in r <==> a in roles && !ExistsByRoleName(t, a)
    ensures (forall a :: a in roles ==> ExistsByRoleName(t, a)) ==> r == []
  {
    if |roles| == 0 then []
    else
      var last := roles[|roles| - 1];
      assert roles == roles[..|roles| - 1] + [last];
      MissingFrom(t, roles[..|roles| - 1]) + (if ExistsByRoleName(t, last) then [] else [last])
  }

  /** The role names of a run of rows. */
  function NamesOf(rows: seq<Role>): (r: seq<AppRole>)
    ensures |r| == |rows|
    ensures forall i :: 0 <= i < |rows| ==> r[i] == rows[i].roleName
  {
    seq(|rows|, i requires 0 <= i < |rows| => rows[i].roleName)
  }

  /** One iteration of `run`: save a row for `role` unless one exists. */
  function SeedOne(t: RoleTable, role: AppRole): (r: RoleTable)
    ensures forall a :: ExistsByRoleName(r, a) <==> ExistsByRoleName(t, a) || a == role
    ensures |t.rows| <= |r.rows| && r.rows[..|t.rows|] == t.rows
    ensures AtMostOncePerName(t) ==> AtMostOncePerName(r)
  {
    if ExistsByRoleName(t, role) then t
    else
      var r := RoleTable(t.rows + [Role(t.nextId, role)], t.nextId + 1);
      assert r.rows[|t.rows|].roleName == role;
      assert forall a :: ExistsByRoleName(r, a) <==> ExistsByRoleName(t, a) || a == role by {
        forall a
          ensures ExistsByRoleName(r, a) <==> ExistsByRoleName(t, a) || a == role
        {
          if ExistsByRoleName(r, a) && a != role {
            var k :| 0 <= k < |r.rows| && r.rows[k].roleName == a;
            assert t.rows[k].roleName == a;
          }
          if ExistsByRoleName(t, a) {
            var k :| 0 <= k < |t.rows| && t.rows[k].roleName == a;
            assert r.rows[k].roleName == a;
          }
        }
      }
      r
  }

  /** Extending the enumeration prefix by one role extends the missing list by
      that role exactly when it has no row. */
  lemma MissingStep(t: RoleTable, i: nat)
    requires i < |AllRoles|
    ensures MissingFrom(t, AllRoles[..i + 1])
         == MissingFrom(t, AllRoles[..i]) + (if ExistsByRoleName(t, AllRoles[i]) then [] else [AllRoles[i]])
  {
    assert AllRoles[..i + 1][..i] == AllRoles[..i];
  }

  /** `r` starts with the rows of `t`, unchanged. */
  predicate KeepsRows(t: RoleTable, r: RoleTable) {
    |t.rows| <= |r.rows| && r.rows[..|t.rows|] == t.rows
  }

  /** A role has a row in `r` exactly when it had one in `t` or is among `roles`. */
  predicate CoversRoles(t: RoleTable, r: RoleTable, roles: seq<AppRole>) {
    forall a :: ExistsByRoleName(r, a) <==> ExistsByRoleName(t, a) || a in roles
  }

  /** The rows added to `t` hold exactly the roles of `roles` that `t` lacked, in order. */
  predicate AddsMissing(t: RoleTable, r: RoleTable, roles: seq<AppRole>)
    requires |t.rows| <= |r.rows|
  {
    NamesOf(r.rows[|t.rows|..]) == MissingFrom(t, roles)
  }

  /** The rows added to `t` took consecutive identity values from `t.nextId` on. */
  predicate FreshIds(t: RoleTable, r: RoleTable)
    requires |t.rows| <= |r.rows|
  {
    && r.nextId == t.nextId + (|r.rows| - |t.rows|)
    && forall k :: |t.rows| <= k < |r.rows| ==> r.rows[k].id == t.nextId + (k - |t.rows|)
  }

  /** What `run` has established after handling the first `i` roles of the
      enumeration, starting from table `t`. */
  predicate Progress(t: RoleTable, r: RoleTable, i: nat)
    requires i <= |AllRoles|
  {
    && KeepsRows(t, r)
    && CoversRoles(t, r, AllRoles[..i])
    && AddsMissing(t, r, AllRoles[..i])
    && FreshIds(t, r)
    && (AtMostOncePerName(t) ==> AtMostOncePerName(r))
  }

  /** Role `AllRoles[i]` has a row in a table `run` has brought through the
      first `i` roles exactly when it had one at the start. */
  lemma NextRoleUntouched(t: RoleTable, r: RoleTable, i: nat)
    requires i < |AllRoles| && CoversRoles(t, r, AllRoles[..i])
    ensures ExistsByRoleName(r, AllRoles[i]) <==> ExistsByRoleName(t, AllRoles[i])
  {
    assert AllRoles[i] !in AllRoles[..i];
  }

  lemma KeepsRowsStep(t: RoleTable, r: RoleTable, role: AppRole)
    requires KeepsRows(t, r)
    ensures KeepsRows(t, SeedOne(r, role))
  {
    var r' := SeedOne(r, role);
    assert r'.rows[..|r.rows|] == r.rows;
  }

  lemma CoversRolesStep(t: RoleTable, r: RoleTable, i: nat)
    requires i < |AllRoles| && CoversRoles(t, r, AllRoles[..i])
    ensures CoversRoles(t, SeedOne(r, AllRoles[i]), AllRoles[..i + 1])
  {
    assert AllRoles[..i + 1] == AllRoles[..i] + [AllRoles[i]];
  }

  /** The rows `run` added so far grow by the saved row, if any. */
  lemma AddedRowsStep(t: RoleTable, r: RoleTable, role: AppRole)
    requires |t.rows| <= |r.rows|
    ensures var r' := SeedOne(r, role);
            r'.rows[|t.rows|..] == r.rows[|t.rows|..] + (if ExistsByRoleName(r, role) then [] else [Role(r.nextId, role)])
  {
  }

  /** The names of the rows `run` added so far grow by the saved role, if any. */
  lemma AddedNamesStep(t: RoleTable, r: RoleTable, role: AppRole)
    requires |t.rows| <= |r.rows|
    ensures NamesOf(SeedOne(r, role).rows[|t.rows|..])
         == NamesOf(r.rows[|t.rows|..]) + (if ExistsByRoleName(r, role) then [] else [role])
  {
    AddedRowsStep(t, r, role);
  }

  lemma {:induction false} AddsMissingStep(t: RoleTable, r: RoleTable, i: nat)
    requires i < |AllRoles| && KeepsRows(t, r)
    requires CoversRoles(t, r, AllRoles[..i]) && AddsMissing(t, r, AllRoles[..i])
    ensures KeepsRows(t, SeedOne(r, AllRoles[i]))
    ensures AddsMissing(t, SeedOne(r, AllRoles[i]), AllRoles[..i + 1])
  {
    var role := AllRoles[i];
    KeepsRowsStep(t, r, role);
    NextRoleUntouched(t, r, i);
    MissingStep(t, i);
    AddedNamesStep(t, r, role);
  }

  lemma {:induction false} FreshIdsStep(t: RoleTable, r: RoleTable, role: AppRole)
    requires KeepsRows(t, r) && FreshIds(t, r)
    ensures KeepsRows(t, SeedOne(r, role))
    ensures FreshIds(t, SeedOne(r, role))
  {
    KeepsRowsStep(t, r, role);
    var r' := SeedOne(r, role);
    if !ExistsByRoleName(r, role) {
      assert r'.rows == r.rows + [Role(r.nextId, role)];
      forall k | |t.rows| <= k < |r'.rows|
        ensures r'.rows[k].id == t.nextId + (k - |t.rows|)
      {
        if k < |r.rows| {
          assert r'.rows[k] == r.rows[k];
        }
      }
    }
  }

  /** One iteration of the loop of `run` keeps `Progress`. */
  lemma {:induction false} ProgressStep(t: RoleTable, r: RoleTable, i: nat)
    requires i < |AllRoles| && Progress(t, r, i)
    ensures Progress(t, SeedOne(r, AllRoles[i]), i + 1)
  {
    CoversRolesStep(t, r, i);
    AddsMissingStep(t, r, i);
    FreshIdsStep(t, r, AllRoles[i]);
  }

  /** What `Progress` through the whole enumeration means for the table. */
  lemma RunEstablishes(t: RoleTable, r: RoleTable)
    requires Progress(t, r, |AllRoles|)
    ensures forall a: AppRole :: ExistsByRoleName(r, a)
    ensures NamesOf(r.rows[|t.rows|..]) == MissingFrom(t, AllRoles)
    ensures (forall a: AppRole :: ExistsByRoleName(t, a)) ==> r == t
  {
    assert AllRoles[..|AllRoles|] == AllRoles;
    forall a: AppRole
      ensures ExistsByRoleName(r, a)
    {
      assert a == AllRoles[0] || a == AllRoles[1];
    }
    if forall a: AppRole :: ExistsByRoleName(t, a) {
      assert r.rows == r.rows[..|t.rows|] + r.rows[|t.rows|..];
    }
  }

  /** `run`: walks the enumeration and saves a row for every role that does not
      exist yet. Afterwards every role has a row; the existing rows are kept
      as they were; the rows added are exactly the missing roles, in
      enumeration order, with fresh ids; no role that already had a row gets a
      second one; and on a table where every role exists it does nothing, so a
      second run adds nothing. */
  method Run(t: RoleTable) returns (r: RoleTable)
    ensures forall a: AppRole :: ExistsByRoleName(r, a)
    ensures |t.rows| <= |r.rows| && r.rows[..|t.rows|] == t.rows
    ensures NamesOf(r.rows[|t.rows|..]) == MissingFrom(t, AllRoles)
    ensures forall i :: |t.rows| <= i < |r.rows| ==> r.rows[i].id == t.nextId + (i - |t.rows|)
    ensures AtMostOncePerName(t) ==> AtMostOncePerName(r)
    ensures (forall a: AppRole :: ExistsByRoleName(t, a)) ==> r == t
  {
    r := t;
    assert r.rows[|t.rows|..] == [];
    for i := 0 to |AllRoles|
      invariant Progress(t, r, i)
    {
      ProgressStep(t, r, i);
      r := SeedOne(r, AllRoles[i]);
    }
    RunEstablishes(t, r);
  }
}

=== FILE: roles.dfy ===
/** The role enumeration and the roles table the signup flow reads. */
module Roles {
  import opened Wrappers

  /** The role enumeration, in declaration order. */
  datatype AppRole = RoleUser | RoleAdmin {
    /** The authority string the role grants. */
    function Name(): string {
      match this
      case RoleUser => "ROLE_USER"
      case RoleAdmin => "ROLE_ADMIN"
    }
  }

  /** `AppRole.values()`. */
  const AllRoles: seq<AppRole> := [RoleUser, RoleAdmin]

  /** A row of the roles table. */
  datatype Role = Role(id: int, roleName: AppRole)

  /** The roles table and the next value of its identity column. */
  datatype RoleTable = RoleTable(rows: seq<Role>, nextId: int)

  /** `existsByRoleName`: some stored row holds the role. */
  predicate ExistsByRoleName(t: RoleTable, name: AppRole) {
    exists i :: 0 <= i < |t.rows| && t.rows[i].roleName == name
  }

  /** A role exists exactly when some stored row holds it. */
  lemma ExistsByRoleNameIsMembership(t: RoleTable, name: AppRole)
    ensures ExistsByRoleName(t, name) <==> exists r :: r in t.rows && r.roleName == name
  {
  }

  /** `findByRoleName`: a row holding the role, if any; on a table with at
      most one row per role, the only such row. */
  function FindByRoleName(t: RoleTable, name: AppRole): (r: Option<Role>)
    ensures r.Some? ==> r.value in t.rows && r.value.roleName == name
    ensures r.None? <==> !ExistsByRoleName(t, name)
    ensures AtMostOncePerName(t) && r.Some? ==>
              forall i :: 0 <= i < |t.rows| && t.rows[i].roleName == name ==> t.rows[i] == r.value
  {
    FindIn(t.rows, name)
  }

  function FindIn(rows: seq<Role>, name: AppRole): (r: Option<Role>)
    ensures r.Some? ==> r.value in rows && r.value.roleName == name
    ensures r.None? <==> forall i :: 0 <= i < |rows| ==> rows[i].roleName != name
  {
    if |rows| == 0 then None
    else if rows[0].roleName == name then Some(rows[0])
    else
      var r := FindIn(rows[1..], name);
      assert forall i :: 1 <= i < |rows| ==> rows[i] == rows[1..][i - 1];
      r
  }

  /** No role name occurs in two rows. */
  predicate AtMostOncePerName(t: RoleTable) {
    forall i, j :: 0 <= i < j < |t.rows| ==> t.rows[i].roleName != t.rows[j].roleName
  }
}

=== FILE: service.dfy ===
/** `PlayerServiceImpl`: the queries, the paged sorts, the top-ten query and
    the three writes, each a pure function of the table. */
module PlayerService {
  import opened Wrappers
  import opened Text
  import opened Players
  import opened Ordering
  import opened PlayerRepository

  /** A write's outcome: the table afterwards, and the value returned or the
      exception thrown. */
  datatype Reply<T> = Reply(store: Store, result: Result<T, Error>)

  /** `getPlayers`: one response per stored row, in table order. */
  function GetPlayers(st: Store): (r: seq<PlayerResponse>)
    ensures Entities(r) == st.rows
  {
    ToResponses(st.rows)
  }

  /** `getPlayersFromTeam`: `TeamNotFound` exactly when the repository answers
      with an absent result; otherwise every row of that team, ignoring case. */
  function GetPlayersFromTeam(st: Store, team: string, absent: bool): (r: Result<seq<PlayerResponse>, Error>)
    ensures r.Failure? <==> absent
    ensures r.Failure? ==> r.error == TeamNotFound
    ensures r.Success? ==> forall p :: p in Entities(r.value) <==> p in st.rows && TeamMatches(p, team)
    ensures r.Success? ==> multiset(Entities(r.value)) <= multiset(st.rows)
  {
    match FindAllByTeamIgnoreCase(st.rows, team, absent)
    case None => Failure(TeamNotFound)
    case Some(players) => Success(ToResponses(players))
  }

  /** `getPlayersByName`: `PlayerNotFound` exactly when the repository answers
      with an absent result; otherwise the rows with exactly that name. */
  function GetPlayersByName(st: Store, name: string, absent: bool): (r: Result<seq<PlayerResponse>, Error>)
    ensures r.Failure? <==> absent
    ensures r.Failure? ==> r.error == PlayerNotFound
    ensures r.Success? ==> forall p :: p in Entities(r.value) <==> p in st.rows && p.name == name
    ensures r.Success? ==> multiset(Entities(r.value)) <= multiset(st.rows)
  {
    match FindAllByPlayerName(st.rows, name, absent)
    case None => Failure(PlayerNotFound)
    case Some(players) => Success(ToResponses(players))
  }

  /** `getPlayersByAge`: `PlayerNotFound` exactly when the repository answers
      with an absent result; otherwise the rows of exactly that age. */
  function GetPlayersByAge(st: Store, age: int, absent: bool): (r: Result<seq<PlayerResponse>, Error>)
    ensures r.Failure? <==> absent
    ensures r.Failure? ==> r.error == PlayerNotFound
    ensures r.Success? ==> forall p :: p in Entities(r.value) <==> p in st.rows && p.age == age
    ensures r.Success? ==> multiset(Entities(r.value)) <= multiset(st.rows)
  {
    match FindAllByAge(st.rows, age, absent)
    case None => Failure(PlayerNotFound)
    case Some(players) => Success(ToResponses(players))
  }

  /** A repository that does answer never turns "no row of that team" into
      an error: the service returns the empty list. */
  lemma PresentEmptyTeamIsNotAnError(st: Store, team: string)
    requires forall p :: p in st.rows ==> !TeamMatches(p, team)
    ensures GetPlayersFromTeam(st, team, false) == Success([])
  {
  }

  /** Likewise for a name no row carries. */
  lemma PresentEmptyNameIsNotAnError(st: Store, name: string)
    requires forall p :: p in st.rows ==> p.name != name
    ensures GetPlayersByName(st, name, false) == Success([])
  {
  }

  /** Likewise for an age no row carries. */
  lemma PresentEmptyAgeIsNotAnError(st: Store, age: int)
    requires forall p :: p in st.rows ==> p.age != age
    ensures GetPlayersByAge(st, age, false) == Success([])
  {
  }

  /** The direction token: "asc" or "desc" in any case; anything else is ascending. */
  function ParseDirection(token: string): (d: Direction)
    ensures d == Desc <==> EqualsIgnoreCase(token, "desc")
  {
    if EqualsIgnoreCase(token, "asc") then Asc
    else if EqualsIgnoreCase(token, "desc") then Desc
    else Asc
  }

  /** The page of the table sorted on `field` that `sortPlayersByAge` and
      `sortPlayersByPoint` both build. */
  function SortedPage(st: Store, field: SortField, page: int, size: int, direction: string): (r: Result<seq<PlayerResponse>, Error>)
    ensures r.Failure? <==> page < 0 || size < 1 || page * size > IntMax
    ensures r.Failure? ==> r.error == (if page < 0 || size < 1 then InvalidPageRequest else OffsetTooLarge)
    ensures r.Success? ==> page >= 0 && size >= 1 && IsPage(Entities(r.value), SortBy(field, ParseDirection(direction), st.rows), page, size)
    ensures r.Success? ==> Sorted(field, ParseDirection(direction), Entities(r.value))
  {
    var sort := SortOn(field, ParseDirection(direction));
    match PageRequestOf(page, size, sort)
    case Failure(e) => Failure(e)
    case Success(pr) =>
      match FindAllPaged(st.rows, pr)
      case Failure(e) => Failure(e)
      case Success(rows) => Success(ToResponses(rows))
  }

  /** `sortPlayersByAge`: the requested page of the table ordered by `age`;
      an invalid page index or size, or an offset beyond `Integer.MAX_VALUE`,
      is an error. */
  function SortPlayersByAge(st: Store, page: int, size: int, direction: string): (r: Result<seq<PlayerResponse>, Error>)
    ensures r.Failure? <==> page < 0 || size < 1 || page * size > IntMax
    ensures r.Failure? ==> r.error == (if page < 0 || size < 1 then InvalidPageRequest else OffsetTooLarge)
    ensures r.Success? ==> page >= 0 && size >= 1 && IsPage(Entities(r.value), SortBy(ByAge, ParseDirection(direction), st.rows), page, size)
    ensures r.Success? ==> Sorted(ByAge, ParseDirection(direction), Entities(r.value))
  {
    SortedPage(st, ByAge, page, size, direction)
  }

  /** `sortPlayersByPoint`: the requested page of the table ordered by `pts`;
      an invalid page index or size, or an offset beyond `Integer.MAX_VALUE`,
      is an error. */
  function SortPlayersByPoint(st: Store, page: int, size: int, direction: string): (r: Result<seq<PlayerResponse>, Error>)
    ensures r.Failure? <==> page < 0 || size < 1 || page * size > IntMax
    ensures r.Failure? ==> r.error == (if page < 0 || size < 1 then InvalidPageRequest else OffsetTooLarge)
    ensures r.Success? ==> page >= 0 && size >= 1 && IsPage(Entities(r.value), SortBy(ByStat(Pts), ParseDirection(direction), st.rows), page, size)
    ensures r.Success? ==> Sorted(ByStat(Pts), ParseDirection(direction), Entities(r.value))
  {
    SortedPage(st, ByStat(Pts), page, size, direction)
  }

  /** Both arguments are valid `int`s, but page 2^30 of size 4 starts at offset
      2^32, which no `int` holds: the request is refused rather than answered
      with an empty page. */
  lemma LargeOffsetIsRefused(st: Store, direction: string)
    ensures SortPlayersByAge(st, 0x4000_0000, 4, direction) == Failure(OffsetTooLarge)
    ensures SortPlayersByPoint(st, 0x4000_0000, 4, direction) == Failure(OffsetTooLarge)
    ensures SortPlayersByAge(st, 0x1FFF_FFFF, 4, direction).Success?
  {
  }

  /** The page size of the top-ten query. */
  const TopTen := 10

  /** `topTenPlayersForFilter`: page 0 of size 10 of the table ordered
      descending by the column the filter selects. */
  function TopTenPlayersForFilter(st: Store, filter: string): (r: seq<PlayerResponse>)
    ensures |r| == if |st.rows| < TopTen then |st.rows| else TopTen
    ensures Sorted(TopTenField(filter), Desc, Entities(r))
    ensures multiset(Entities(r)) <= multiset(st.rows)
    ensures Entities(r) == SortBy(TopTenField(filter), Desc, st.rows)[..|r|]
  {
    var pr := PageRequest(0, TopTen, Unsorted);
    var rows := FindTopTenByFilter(st.rows, filter, pr).value;
    var sorted := SortBy(TopTenField(filter), Desc, st.rows);
    assert rows == sorted[..|rows|];
    PrefixMultiset(sorted, |rows|);
    ToResponses(rows)
  }

  lemma PrefixMultiset(s: seq<Player>, n: nat)
    requires n <= |s|
    ensures multiset(s[..n]) <= multiset(s)
  {
    assert s == s[..n] + s[n..];
  }

  /** The direction tokens the tests exercise: "asc" and "desc" in any case,
      and garbage falling back to ascending. */
  lemma DirectionTokens()
    ensures ParseDirection("asc") == Asc && ParseDirection("ASC") == Asc
    ensures ParseDirection("desc") == Desc && ParseDirection("DESC") == Desc && ParseDirection("DeSc") == Desc
    ensures ParseDirection("invalid_direction") == Asc && ParseDirection("wrong") == Asc && ParseDirection("") == Asc
  {
    assert FoldCase('D') == 'd' && FoldCase('E') == 'e' && FoldCase('S') == 's' && FoldCase('C') == 'c';
    assert !EqualsIgnoreCase("invalid_direction", "desc");
    assert !EqualsIgnoreCase("wrong", "desc") by { assert FoldCase('w') != FoldCase('d'); }
  }

  /** Paging covers the ordered table: the row at position `k` of the ordered
      table is row `k % size` of page `k / size`, whenever that page's offset
      fits in an `int`. */
  lemma {:induction false} PagesTileSortedTable(st: Store, field: SortField, size: int, direction: string, k: nat)
    requires size >= 1 && k < |st.rows|
    ensures SortedPage(st, field, k / size, size, direction).Success? <==> (k / size) * size <= IntMax
    ensures (k / size) * size <= IntMax ==>
            var page := SortedPage(st, field, k / size, size, direction).value;
            k % size < |page| && Entities(page)[k % size] == SortBy(field, ParseDirection(direction), st.rows)[k]
  {
    DivisionSplits(k, size);
    var r := SortedPage(st, field, k / size, size, direction);
    if r.Success? {
      PageHolds(Entities(r.value), SortBy(field, ParseDirection(direction), st.rows), k / size, size, k % size, k);
    }
  }

  lemma DivisionSplits(k: nat, size: int)
    requires size >= 1
    ensures (k / size) * size + k % size == k && 0 <= k % size < size && 0 <= k / size
  {
  }

  /** With no rows stored the top-ten query answers with an empty list, not an error. */
  lemma TopTenOfEmptyTable(st: Store, filter: string)
    requires st.rows == []
    ensures TopTenPlayersForFilter(st, filter) == []
  {
  }

  /** The filter is compared case-sensitively, and names that are not one of the
      five statistic tokens fall back to the id. */
  lemma TopTenFilterTokens()
    ensures TopTenField("reb") == ByStat(Reb) && TopTenField("dreb") == ByStat(Dreb)
    ensures TopTenField("REB") == ById && TopTenField("points") == ById
    ensures TopTenField("pts") == ById && TopTenField("rebounds") == ById
  {
  }

  /** Every stored row left out of the top ten ranks no higher than the last
      row returned. */
  lemma {:induction false} TopTenHoldsTheGreatest(st: Store, filter: string, p: Player)
    requires |TopTenPlayersForFilter(st, filter)| > 0
    requires p in multiset(st.rows) - multiset(Entities(TopTenPlayersForFilter(st, filter)))
    ensures var top := Entities(TopTenPlayersForFilter(st, filter));
            KeyLe(KeyOf(p, TopTenField(filter)), KeyOf(top[|top| - 1], TopTenField(filter)))
  {
    var f := TopTenField(filter);
    var top := Entities(TopTenPlayersForFilter(st, filter));
    var sorted := SortBy(f, Desc, st.rows);
    assert top == sorted[..|top|];
    RestFollowsPrefix(f, Desc, sorted, |top|, p);
  }

  /** `dtoToEntity` then `save`: the identity column supplies the id, the
      payload every other column. */
  function NewPlayer(id: int, name: string, req: PlayerRequest): (p: Player)
    ensures p.id == id && p.name == name && p.team == req.team && p.age == req.age && p.stats == req.stats
  {
    Player(id, name, req.team, req.age, req.stats)
  }

  /** `addPlayer`. The payload is not validated here; saving it fails when the
      name is null (non-null column) or already used (unique column), and then
      the table is unchanged. Otherwise the row is appended with the next id. */
  function AddPlayer(st: Store, req: PlayerRequest): (r: Reply<PlayerResponse>)
    requires Valid(st)
    ensures Valid(r.store)
    ensures r.result.Failure? ==> r.store == st
    ensures r.result.Success? <==> req.name.Some? && !NameTaken(st.rows, req.name.value, None)
    ensures r.result == Failure(NotNullViolation) <==> req.name.None?
    ensures r.result == Failure(Conflict) <==> req.name.Some? && NameTaken(st.rows, req.name.value, None)
    ensures r.result.Success? ==>
              var p := ToEntity(r.result.value);
              && r.store == Store(st.rows + [p], st.nextId + 1)
              && p.id == st.nextId && Some(p.name) == req.name && p.team == req.team
              && p.age == req.age && p.stats == req.stats
  {
    match req.name
    case None => Reply(st, Failure(NotNullViolation))
    case Some(name) =>
      if NameTaken(st.rows, name, None) then Reply(st, Failure(Conflict))
      else
        var p := NewPlayer(st.nextId, name, req);
        Reply(Store(st.rows + [p], st.nextId + 1), Success(ToResponse(p)))
  }

  /** A second add of the same name is a conflict and leaves the table alone. */
  lemma {:induction false} AddingTwiceConflicts(st: Store, req: PlayerRequest)
    requires Valid(st)
    requires AddPlayer(st, req).result.Success?
    ensures var st' := AddPlayer(st, req).store;
            AddPlayer(st', req) == Reply(st', Failure(Conflict))
  {
    var st' := AddPlayer(st, req).store;
    assert st'.rows[|st.rows|].name == req.name.value;
  }

  /** `modelMapper.map(request, player)` under `Conditions.isNotNull()`: a
      non-null payload field overwrites the column, a null one leaves it; the
      primitive `age` is never null and is always copied; the id is not part
      of the payload. */
  function Merge(p: Player, req: PlayerRequest): (r: Player)
    ensures r.id == p.id
    ensures r.age == req.age
    ensures req.name.Some? ==> r.name == req.name.value
    ensures req.name.None? ==> r.name == p.name
    ensures req.team.Some? ==> r.team == req.team
    ensures req.team.None? ==> r.team == p.team
    ensures forall s :: s in req.stats ==> StatOf(r, s) == Some(req.stats[s])
    ensures forall s :: s !in req.stats ==> StatOf(r, s) == StatOf(p, s)
  {
    Player(
      p.id,
      if req.name.Some? then req.name.value else p.name,
      if req.team.Some? then req.team else p.team,
      req.age,
      p.stats + req.stats)
  }

  /** Applying the same payload twice changes nothing more. */
  lemma MergeIsIdempotent(p: Player, req: PlayerRequest)
    ensures Merge(Merge(p, req), req) == Merge(p, req)
  {
    assert (p.stats + req.stats) + req.stats == p.stats + req.stats;
  }

  /** A payload of nulls that repeats the stored age leaves the row as it is. */
  lemma MergeOfNullsKeepsRow(p: Player, req: PlayerRequest)
    requires req.name.None? && req.team.None? && req.stats == map[] && req.age == p.age
    ensures Merge(p, req) == p
  {
    assert p.stats + map[] == p.stats;
  }

  /** The primitive-field asymmetry: an omitted age arrives as 0 and overwrites
      the stored age, where an omitted statistic leaves its column alone. */
  lemma MergeZeroesOmittedAge(p: Player, req: PlayerRequest, s: Stat)
    requires req.age == 0 && req.stats == map[]
    ensures Merge(p, req).age == 0
    ensures StatOf(Merge(p, req), s) == StatOf(p, s)
  {
  }

  /** A payload with every field present determines the whole row but its id. */
  lemma {:induction false} FullPayloadDeterminesRow(p: Player, q: Player, req: PlayerRequest)
    requires p.id == q.id
    requires req.name.Some? && req.team.Some?
    requires forall s: Stat :: s in req.stats
    ensures Merge(p, req) == Merge(q, req)
  {
    assert p.stats + req.stats == q.stats + req.stats;
  }

  /** The table with the row at position `k` replaced by `q`. */
  function ReplaceAt(rows: seq<Player>, k: nat, q: Player): (r: seq<Player>)
    requires k < |rows|
    ensures |r| == |rows| && r[k] == q
    ensures forall i :: 0 <= i < |rows| && i != k ==> r[i] == rows[i]
  {
    rows[k := q]
  }

  /** `updatePlayer`. A missing id throws `PlayerNotFound` before any write.
      Otherwise the stored row is merged with the payload and saved in place;
      a merged name that another row already uses violates the unique column,
      and then nothing is written. */
  function UpdatePlayer(st: Store, id: int, req: PlayerRequest): (r: Reply<PlayerResponse>)
    requires Valid(st)
    ensures Valid(r.store)
    ensures r.result.Failure? ==> r.store == st
    ensures FindById(st.rows, id).None? ==> r.result == Failure(PlayerNotFound)
    ensures FindById(st.rows, id).Some? ==>
              var merged := Merge(FindById(st.rows, id).value, req);
              && (r.result.Failure? <==> NameTaken(st.rows, merged.name, Some(id)))
              && (r.result.Failure? ==> r.result.error == Conflict)
              && (r.result.Success? ==> r.result.value == ToResponse(merged) && FindById(r.store.rows, id) == Some(merged))
    ensures r.result.Success? ==>
              && |r.store.rows| == |st.rows| && r.store.nextId == st.nextId
              && forall other :: other != id ==> FindById(r.store.rows, other) == FindById(st.rows, other)
  {
    match IndexOfId(st.rows, id)
    case None => Reply(st, Failure(PlayerNotFound))
    case Some(k) =>
      FindByIdAt(st, k);
      var merged := Merge(st.rows[k], req);
      if NameTaken(st.rows, merged.name, Some(id)) then Reply(st, Failure(Conflict))
      else
        var st' := Store(ReplaceAt(st.rows, k, merged), st.nextId);
        ReplacedRowKeepsOthers(st, k, merged, st');
        Reply(st', Success(ToResponse(merged)))
  }

  /** Replacing a row by one with the same id and a name no other row uses
      keeps the table valid, and every other id finds what it found before. */
  lemma {:induction false} ReplacedRowKeepsOthers(st: Store, k: nat, q: Player, st': Store)
    requires Valid(st) && k < |st.rows| && q.id == st.rows[k].id
    requires !NameTaken(st.rows, q.name, Some(q.id))
    requires st' == Store(ReplaceAt(st.rows, k, q), st.nextId)
    ensures Valid(st')
    ensures FindById(st'.rows, q.id) == Some(q)
    ensures forall other :: other != q.id ==> FindById(st'.rows, other) == FindById(st.rows, other)
  {
    ReplaceKeepsValid(st, k, q);
    FindByIdAt(st', k);
    forall other | other != q.id
      ensures FindById(st'.rows, other) == FindById(st.rows, other)
    {
      match IndexOfId(st.rows, other)
      case None =>
        assert FindById(st'.rows, other).None?;
      case Some(j) =>
        FindByIdAt(st, j);
        FindByIdAt(st', j);
    }
  }

  /** Replacing a row by one with the same id and a name no other row uses
      keeps the table valid. */
  lemma ReplaceKeepsValid(st: Store, k: nat, q: Player)
    requires Valid(st) && k < |st.rows| && q.id == st.rows[k].id
    requires !NameTaken(st.rows, q.name, Some(q.id))
    ensures Valid(Store(ReplaceAt(st.rows, k, q), st.nextId))
  {
    var rows' := ReplaceAt(st.rows, k, q);
    forall i, j | 0 <= i < j < |rows'|
      ensures rows'[i].id != rows'[j].id && rows'[i].name != rows'[j].name
    {
      if i == k {
        assert rows'[j] == st.rows[j];
      } else if j == k {
        assert rows'[i] == st.rows[i];
      }
    }
  }

  /** The table without the row at position `k`, the others in their order. */
  function RemoveAt(rows: seq<Player>, k: nat): (r: seq<Player>)
    requires k < |rows|
    ensures |r| == |rows| - 1
    ensures forall i :: 0 <= i < k ==> r[i] == rows[i]
    ensures forall i :: k <= i < |r| ==> r[i] == rows[i + 1]
  {
    rows[..k] + rows[k + 1..]
  }

  /** Removing the row at `k` of a valid table keeps it valid and drops
      exactly the rows with that row's id. */
  lemma RemovedRowOnly(st: Store, k: nat)
    requires Valid(st) && k < |st.rows|
    ensures Valid(Store(RemoveAt(st.rows, k), st.nextId))
    ensures forall p :: p in RemoveAt(st.rows, k) <==> p in st.rows && p.id != st.rows[k].id
  {
    RemoveKeepsValid(st, k);
    var rows' := RemoveAt(st.rows, k);
    forall p
      ensures p in rows' <==> p in st.rows && p.id != st.rows[k].id
    {
      if p in rows' {
        var i :| 0 <= i < |rows'| && rows'[i] == p;
        if i < k { assert st.rows[i] == p; } else { assert st.rows[i + 1] == p; }
      }
      if p in st.rows && p.id != st.rows[k].id {
        var i :| 0 <= i < |st.rows| && st.rows[i] == p;
        if i < k { assert rows'[i] == p; } else { assert rows'[i - 1] == p; }
      }
    }
  }

  /** Removing a row keeps the table valid. */
  lemma RemoveKeepsValid(st: Store, k: nat)
    requires Valid(st) && k < |st.rows|
    ensures Valid(Store(RemoveAt(st.rows, k), st.nextId))
  {
    var rows' := RemoveAt(st.rows, k);
    forall i, j | 0 <= i < j < |rows'|
      ensures rows'[i].id != rows'[j].id && rows'[i].name != rows'[j].name
    {
      var i', j' := if i < k then i else i + 1, if j < k then j else j + 1;
      assert rows'[i] == st.rows[i'] && rows'[j] == st.rows[j'];
    }
  }

  /** `deletePlayer`: a missing id throws `PlayerNotFound` and deletes nothing;
      otherwise exactly the row with that id is removed. */
  function DeletePlayer(st: Store, id: int): (r: Reply<()>)
    requires Valid(st)
    ensures Valid(r.store)
    ensures r.result.Failure? <==> FindById(st.rows, id).None?
    ensures r.result.Failure? ==> r.result.error == PlayerNotFound && r.store == st
    ensures r.result.Success? ==>
              && |r.store.rows| == |st.rows| - 1 && r.store.nextId == st.nextId
              && FindById(r.store.rows, id).None?
              && forall p :: p in r.store.rows <==> p in st.rows && p.id != id
  {
    match IndexOfId(st.rows, id)
    case None => Reply(st, Failure(PlayerNotFound))
    case Some(k) =>
      var st' := Store(RemoveAt(st.rows, k), st.nextId);
      RemovedRowOnly(st, k);
      Reply(st', Success(()))
  }
}

=== FILE: text.dfy ===
/** The string predicates the service relies on: Java's `String.trim`,
    Hibernate Validator's `@NotBlank` rule and `String.equalsIgnoreCase`. */
module Text {

  /** Characters Java's `String.trim` strips: everything at or below U+0020. */
  predicate IsTrimmable(c: char) {
    c <= ' '
  }

  /** The number of trimmable characters `s` starts with. */
  function Leading(s: string): (n: nat)
    ensures n <= |s|
    ensures forall i :: 0 <= i < n ==> IsTrimmable(s[i])
    ensures n < |s| ==> !IsTrimmable(s[n])
  {
    if |s| > 0 && IsTrimmable(s[0]) then
      var n := 1 + Leading(s[1..]);
      assert forall i :: 1 <= i < n ==> s[i] == s[1..][i - 1];
      n
    else 0
  }

  /** The number of trimmable characters `s` ends with. */
  function Trailing(s: string): (n: nat)
    ensures n <= |s|
    ensures forall i :: |s| - n <= i < |s| ==> IsTrimmable(s[i])
    ensures n < |s| ==> !IsTrimmable(s[|s| - 1 - n])
  {
    if |s| > 0 && IsTrimmable(s[|s| - 1]) then
      var n := 1 + Trailing(s[..|s| - 1]);
      assert forall i :: |s| - n <= i < |s| - 1 ==> s[i] == s[..|s| - 1][i];
      n
    else 0
  }

  /** Java's `String.trim`: both ends stripped of characters at or below U+0020.
      The result is the window of `s` after its leading trimmable characters,
      starting and ending on a character above U+0020, with only trimmable
      characters after it; it is empty exactly when every character of `s` is
      trimmable. */
  function Trim(s: string): (r: string)
    ensures |r| > 0 ==> !IsTrimmable(r[0]) && !IsTrimmable(r[|r| - 1])
    ensures Leading(s) + |r| <= |s| && r == s[Leading(s)..Leading(s) + |r|]
    ensures forall i :: Leading(s) + |r| <= i < |s| ==> IsTrimmable(s[i])
    ensures |r| == 0 <==> forall i :: 0 <= i < |s| ==> IsTrimmable(s[i])
  {
    var start := Leading(s);
    if start == |s| then []
    else
      s[start..|s| - Trailing(s)]
  }

  /** Hibernate Validator's `@NotBlank` on a non-null string: the trimmed
      string is not empty, that is, some character lies above U+0020. */
  predicate NotBlank(s: string)
    ensures NotBlank(s) <==> exists i :: 0 <= i < |s| && !IsTrimmable(s[i])
  {
    |Trim(s)| > 0
  }

  /** ASCII case folding: upper-case Latin letters map to lower case. */
  function FoldCase(c: char): (r: char)
    ensures 'A' <= c <= 'Z' ==> r as int == c as int + 32
    ensures !('A' <= c <= 'Z') ==> r == c
  {
    if 'A' <= c <= 'Z' then (c as int + 32) as char else c
  }

  /** Every character of `s` folded. */
  function Lower(s: string): (r: string)
    ensures |r| == |s|
    ensures forall i :: 0 <= i < |s| ==> r[i] == FoldCase(s[i])
  {
    seq(|s|, i requires 0 <= i < |s| => FoldCase(s[i]))
  }

  /** `String.equalsIgnoreCase` restricted to ASCII case folding: the two
      strings have the same folded form. */
  predicate EqualsIgnoreCase(a: string, b: string)
    ensures EqualsIgnoreCase(a, b) <==> Lower(a) == Lower(b)
  {
    var r := |a| == |b| && forall i :: 0 <= i < |a| ==> FoldCase(a[i]) == FoldCase(b[i]);
    assert r ==> Lower(a) == Lower(b);
    r
  }

  /** Comparing ignoring case is an equivalence relation. */
  lemma EqualsIgnoreCaseIsEquivalence(a: string, b: string, c: string)
    ensures EqualsIgnoreCase(a, a)
    ensures EqualsIgnoreCase(a, b) ==> EqualsIgnoreCase(b, a)
    ensures EqualsIgnoreCase(a, b) && EqualsIgnoreCase(b, c) ==> EqualsIgnoreCase(a, c)
  {
  }
}

=== FILE: validation.dfy ===
/** The bean-validation constraints of the player payload as an explicit
    function from a request to its field violations. */
module Validation {
  import opened Wrappers
  import opened Text
  import opened Players

  /** Hibernate Validator's default English messages. */
  const NotBlankMessage := "must not be blank"
  const PositiveMessage := "must be greater than 0"

  /** The constrained fields of the payload. */
  datatype Field = PlayerName | Team | Age {
    /** The default message of the field's constraint. */
    function Message(): string {
      if this == Age then PositiveMessage else NotBlankMessage
    }
  }

  const AllFields: set<Field> := {PlayerName, Team, Age}

  /** `@NotBlank` on a nullable string: null is rejected, and so is a string
      that trims to nothing. */
  predicate Blank(s: Option<string>) {
    s.None? || !NotBlank(s.value)
  }

  /** The violated constraints, keyed by field name: `playerName` and `team`
      carry `@NotBlank`, `age` carries `@Positive`, the statistics carry nothing. */
  function Violations(req: PlayerRequest): (r: map<Field, string>)
    ensures PlayerName in r <==> Blank(req.name)
    ensures Team in r <==> Blank(req.team)
    ensures Age in r <==> req.age <= 0
    ensures forall k :: k in r ==> r[k] == (if k == Age then PositiveMessage else NotBlankMessage)
  {
    map f | f in AllFields && Violated(req, f) :: f.Message()
  }

  /** Whether the request breaks the constraint on field `f`. */
  predicate Violated(req: PlayerRequest, f: Field) {
    match f
    case PlayerName => Blank(req.name)
    case Team => Blank(req.team)
    case Age => req.age <= 0
  }

  /** `@Valid` accepts the payload: no field is violated, so the name and
      team are non-blank and the age is positive. */
  predicate IsValid(req: PlayerRequest)
    ensures IsValid(req) <==> !Blank(req.name) && !Blank(req.team) && req.age >= 1
  {
    var v := Violations(req);
    assert v != map[] ==> PlayerName in v || Team in v || Age in v by {
      if v != map[] {
        var k :| k in v;
      }
    }
    v == map[]
  }

  /** A payload passes exactly when its name and team are present and hold a
      character above U+0020, and its age is at least one. */
  lemma IsValidIff(req: PlayerRequest)
    ensures IsValid(req) <==>
              && req.name.Some? && (exists i :: 0 <= i < |req.name.value| && !IsTrimmable(req.name.value[i]))
              && req.team.Some? && (exists i :: 0 <= i < |req.team.value| && !IsTrimmable(req.team.value[i]))
              && req.age >= 1
  {
  }

  /** The statistics carry no constraint: null, zero and negative values all
      leave the verdict unchanged. */
  lemma StatsAreUnconstrained(req: PlayerRequest, stats: map<Stat, int>)
    ensures Violations(req.(stats := stats)) == Violations(req)
  {
  }

  /** An omitted `age` arrives as the primitive default 0 and is rejected. */
  lemma OmittedAgeIsRejected(req: PlayerRequest)
    requires req.age == 0
    ensures !IsValid(req) && Violations(req)[Age] == PositiveMessage
  {
    assert Age in Violations(req);
  }

  /** Empty and whitespace-only names are rejected like a missing one. */
  lemma BlankNamesAreRejected(req: PlayerRequest)
    requires req.name.None? || forall i :: 0 <= i < |req.name.value| ==> IsTrimmable(req.name.value[i])
    ensures !IsValid(req)
  {
    assert PlayerName in Violations(req);
  }
}

=== FILE: wrappers.dfy ===
/** Failure-carrying datatypes shared by every module of the model.
    `Option` stands for a nullable Java reference or an `Optional`;
    `Result` stands for a call that either returns or throws. */
module Wrappers {

  datatype Option<+T> = None | Some(value: T)

  datatype Result<+R, +E> = Success(value: R) | Failure(error: E)
}
